=== FILE: README.md ===
# Steam sentiment site: a Dafny model of its logic

This project models the deterministic logic of a Next.js site that shows Steam
games, their reviews with a sentiment label, SteamSpy charts, and a wishlist.
Each source file of the core is one Dafny module. All operations are pure
functions over immutable datatypes and sequences. Each one carries contracts,
and lemmas relate it to an inverse, a reference definition, or an invariant.

- **Sentiment** (`SentimentAnalysis`, lib/sentiment-analysis.ts).
  - Each review gets a label from the score that an external scorer gives its text.
  - The batch statistics are the label counts, the mean score, and a timeline
    with one entry per UTC day, sorted by date.
  - The scorer, the `sentiment` npm package, is a function parameter
    (`Analyzer`).
  - The code classifies on the raw score, with labels at `> 1` and `< -1`.
- **Game lists** (`SteamSpy`, `TopGamesRoute`, `CategoryGamesRoute`,
  `Pagination`).
  - The price-range and genre filters and the three sort orders of
    lib/steamspy-api.ts.
  - The two list routes built on them: validation, then filter, then sort,
    then `slice`/`Math.ceil` paging.
- **Wishlist** (`Wishlist`, `WishlistPage`).
  - The add, remove, query and clear state updates of the React context.
  - The page's newest-first order and its count line.
- **Page helpers**:
  - `NewsSection`: HTML tag stripping and truncation.
  - `PlayerChart`: chart down-sampling.
  - `Navbar`: active link and badge.
  - `GameCard`: owners range, price and score colour.
  - `TopGamesPage`: rank, score and page clamping.
  - `HeroBanner`: carousel index and sentiment badge.
- **Steam helpers**:
  - `SteamApi`: name search, popular ids and review request defaults.
  - `SteamImages` and `SteamCommunity`: the URL builders, each with a parser
    that reads its URLs back.

Shared helpers:
- `Wrappers`: `Option`.
- `Strings`: ASCII lowercasing, `includes`, `indexOf`, `split` and decimal numbers.
- `Seqs`: `filter`, subsequences, and ceiling and rounding division.
- `Sorting`: a stable insertion sort, matching `Array.prototype.sort`.

Modelling choices:
- **Numbers.**
  - Scores and averages are `real`.
  - Counts, indices and app ids are `int`/`nat`.
  - `Math.round(a / b)` and `Math.ceil(a / b)` are exact integer division on
    rationals (`Seqs.RoundDiv`, `Seqs.CeilDiv`).
- **Prices** are whole cents, read from the leading decimal digits of the
  price string. `None` stands for `NaN`.
- **The UTC day** of a review is `timestamp_created / 86400`, rounded down.
  For years 0000-9999, ordering the `YYYY-MM-DD` strings character by
  character is the same as ordering by day number. The timeline is therefore sorted by day
  number.
- **I/O is a parameter.** Each network fetch is a parameter of type
  `Option<...>`, where `None` is a failed request. The clock (`Date.now()`) is
  also a parameter.
- **Route parameters are pre-parsed.** Query parameters arrive already parsed.
  The routes require `perPage >= 1`.

## Model

| member | source | states |
|---|---|---|
| `SentimentAnalysis.GetSentimentLabel` | lib/sentiment-analysis.ts:29-33 | positive exactly when score > 1, negative exactly when score < -1, neutral exactly when -1 <= score <= 1; so the three cases are exclusive and exhaustive |
| `SentimentAnalysis.AnalyzeReview` | lib/sentiment-analysis.ts:38-47 | the review is kept field for field, the sentiment is the scorer's result for its text, and the label is the one that score determines |
| `SentimentAnalysis.AnalyzeReviews` | lib/sentiment-analysis.ts:52-54 | same length as the input, and position i holds the analysis of input review i (order kept) |
| `SentimentAnalysis.AnalyzedReviewsWellLabelled` | lib/sentiment-analysis.ts:52-54 | every analysed review carries its own score's label and the input review at its position |
| `SentimentAnalysis.LabelCountsPartition` | lib/sentiment-analysis.ts:62-67 | positive + neutral + negative counts = number of reviews |
| `SentimentAnalysis.MeanScore` | lib/sentiment-analysis.ts:70-72 | 0 for an empty batch; otherwise mean * count = sum of the scores |
| `SentimentAnalysis.CalculateSentimentStats` | lib/sentiment-analysis.ts:59-105 | totalReviews = batch size; positiveCount, neutralCount and negativeCount are the numbers of reviews with each label and add up to it; averageScore is the batch mean (0 when empty); the timeline is the per-day grouping, with dates strictly ascending and counts adding up to the batch size |
| `SentimentAnalysis.GroupInvariant` | lib/sentiment-analysis.ts:75-84 | the date map has one non-empty bucket per day, holding exactly that day's reviews, and the bucket sizes add up to the batch size |
| `SentimentAnalysis.TimelineEntriesAreDays` | lib/sentiment-analysis.ts:87-93 | timeline dates strictly ascend; each entry's count is the number of reviews of its day (>= 1) and its average is those reviews' mean |
| `SentimentAnalysis.ReviewInExactlyOneEntry` | lib/sentiment-analysis.ts:75-92 | every review's day has an entry, and no two entries share a date, so each review is counted in exactly one entry |
| `SentimentAnalysis.TimelineCountsSum` | lib/sentiment-analysis.ts:87-92 | the timeline counts add up to totalReviews |
| `SentimentAnalysis.SingleDayTimeline` | lib/sentiment-analysis.ts:88-92 | a non-empty batch from one day gives a single entry whose count and average equal the overall ones |
| `SentimentAnalysis.DisplayDistinguishesLabels` | lib/sentiment-analysis.ts:110-147 | the colour, background and emoji maps are each one-to-one on labels |
| `SteamSpy.PriceRangesPartition` | lib/steamspy-api.ts:139-149 | a parsable price in cents is in exactly one of free (0), under10 (1-999), 10to30 (1000-3000), over30 (> 3000); an unparsable (NaN) price is in none |
| `SteamSpy.FilterByPriceRange` | lib/steamspy-api.ts:134-154 | a subsequence of the input holding exactly the games whose price is in the range, each as many times as in the input; an unknown range keeps every game |
| `SteamSpy.PriceFiltersPartitionList` | lib/steamspy-api.ts:138-153 | the four named-range filters plus the unpriced games account for every game of a list exactly once |
| `SteamSpy.GenreMatchesIffContains` | lib/steamspy-api.ts:160-162 | the `includes` scan succeeds exactly when the lowercased needle occurs at some position of the lowercased genre |
| `SteamSpy.FilterByGenre` | lib/steamspy-api.ts:159-163 | a subsequence of the input keeping exactly the games whose lowercased genre contains the lowercased needle, each as many times as in the input |
| `SteamSpy.EmptyGenreKeepsAll` | lib/steamspy-api.ts:159-163 | the empty needle keeps the whole list |
| `SteamSpy.ComparatorsConsistent` | lib/steamspy-api.ts:176-180 | the three comparators are total preorders, so the sorts are well defined |
| `SteamSpy.SortGames` | lib/steamspy-api.ts:168-184 | a permutation of the input; non-increasing ccu for players, non-increasing userscore for rating, ascending names for name; an unknown key returns the input unchanged |
| `SteamSpy.SortGamesStable` | lib/steamspy-api.ts:174-181 | games with equal ccu (players), equal userscore (rating) or equal name (name) keep their input order |
| `SteamSpy.AvailableGenres` | lib/steamspy-api.ts:78-91 | ten distinct genre names |
| `SteamSpy.PopularTags` | lib/steamspy-api.ts:96-129 | thirty distinct tag names |
| `Pagination.Slice` | app/api/top-games/route.ts:36-38 | for 0 <= start <= end, `slice` is the sub-range clipped to the list, and never longer than the list |
| `Pagination.Paginate` | app/api/top-games/route.ts:36-46 | total is the list length, totalPages is the ceiling of total / perPage, and for page >= 1 the page is the clipped range [(page-1)*perPage, page*perPage), at most perPage long |
| `Pagination.PagesArePrefix` | app/api/top-games/route.ts:36-38 | pages 1..n put together are the first n * perPage games |
| `Pagination.AllPagesReassemble` | app/api/top-games/route.ts:36-45 | pages 1..totalPages put together give back the whole list |
| `Pagination.PageBeyondLastIsEmpty` | app/api/top-games/route.ts:36-45 | any page after totalPages is empty |
| `TopGamesRoute.ApplyFiltersSpec` | app/api/top-games/route.ts:21-33 | the listed games are exactly the fetched games passing the requested price and genre filters, each as many times as fetched, so sorting only reorders the filtered list; without sortBy or with an unknown key they keep fetched order; players, rating and name order by that key |
| `TopGamesRoute.FilterStepsSpec` | app/api/top-games/route.ts:21-29 | the price then genre filters keep each fetched game as many times as fetched exactly when it passes both, in fetched order |
| `TopGamesRoute.SortOfFilteredSpec` | app/api/top-games/route.ts:31-33 | the sort step is a permutation of the filtered list, ordered by players, rating or name, and the identity for an unknown key |
| `TopGamesRoute.Get` | app/api/top-games/route.ts:9-54 | a failed fetch and only that gives the 500 error; total counts the filtered, sorted list before paging and totalPages is its ceiling over perPage; for page >= 1 the games are exactly that list's clipped range [(page-1)*perPage, page*perPage), at most perPage of them; page defaults to 1 and perPage to 20 |
| `TopGamesRoute.GetPagesCoverResult` | app/api/top-games/route.ts:36-45 | reading pages 1..totalPages reproduces the filtered, sorted list |
| `CategoryGamesRoute.Get` | app/api/categories/games/route.ts:4-50 | a missing or empty type or value gives the 400 "required" error; any other type than genre or tag gives the 400 "invalid type" error; the 500 error comes exactly from a failed fetch of the chosen kind; otherwise total is the fetched length, totalPages its ceiling over perPage, page and perPage are echoed, and for page >= 1 the games are exactly the fetched list's clipped range [(page-1)*perPage, page*perPage), at most perPage of them |
| `CategoryGamesRoute.InvalidQueryFetchesNothing` | app/api/categories/games/route.ts:12-29 | an invalid query is answered with a 400 whatever the fetchers would return, so nothing is fetched |
| `Wishlist.IsIn` | lib/wishlist-context.tsx:68-70 | true exactly when some item has the app id |
| `Wishlist.Add` | lib/wishlist-context.tsx:54-62 | afterwards the game is in the list; a present app id leaves the list unchanged; a new one is appended at the end with addedAt set to the clock; other memberships are unchanged; unique app ids are preserved |
| `Wishlist.Remove` | lib/wishlist-context.tsx:64-66 | afterwards the app id is absent; every other app id keeps its membership; the result is a subsequence (order kept); unique app ids are preserved |
| `Wishlist.Clear` | lib/wishlist-context.tsx:72-74 | nothing is in the list and the count (the list length) is 0 |
| `Wishlist.AddThenRemove` | lib/wishlist-context.tsx:54-66 | removing a game just added gives back the earlier list |
| `Wishlist.AddIdempotent` | lib/wishlist-context.tsx:57-59 | adding the same game again, at any later time, changes nothing |
| `Wishlist.RemoveAbsent` | lib/wishlist-context.tsx:65 | removing an app id that is not present is a no-op |
| `Wishlist.ActionsKeepAppidsUnique` | lib/wishlist-context.tsx:54-74 | any sequence of add, remove and clear calls keeps app ids unique |
| `WishlistPage.NewestFirst` | app/wishlist/page.tsx:30 | a permutation of the wishlist with addedAt non-increasing |
| `WishlistPage.NewestFirstStable` | app/wishlist/page.tsx:30 | games added at the same moment keep their order in the wishlist |
| `WishlistPage.GameNoun` | app/wishlist/page.tsx:80 | "game" exactly for a count of 1, "games" otherwise |
| `WishlistPage.CountLine` | app/wishlist/page.tsx:79-81 | the count line is the decimal count followed by exactly " game in your wishlist" for 1 and " games in your wishlist" otherwise, and the count reads back as the number |
| `WishlistPage.Render` | app/wishlist/page.tsx:39-84 | the empty state exactly for an empty list; otherwise Clear All is shown, the cards are a permutation of the list, and the count line is the list length followed by the matching noun and " in your wishlist" |
| `NewsSection.StripTags` | components/news-section.tsx:60 | the result is a subsequence of the text, and in it no '<' is followed anywhere later by '>' |
| `NewsSection.StripKeepsPlainPrefix` | components/news-section.tsx:60 | text before the first '<' is kept as it is, and the rest is stripped on its own |
| `NewsSection.StripDropsTag` | components/news-section.tsx:60 | a tag '<' ... '>' with no '>' inside is removed entirely, and stripping goes on after it |
| `NewsSection.StripTagFree` | components/news-section.tsx:60 | text with no '<' followed by '>' is left unchanged |
| `NewsSection.StripIdempotent` | components/news-section.tsx:60 | stripping twice is stripping once |
| `NewsSection.NoOpenBracketUnchanged` | components/news-section.tsx:60 | text without '<' is unchanged |
| `NewsSection.TruncateText` | components/news-section.tsx:58-63 | the stripped text when it fits; otherwise its first maxLength characters then "..." (length maxLength + 3); never longer than maxLength + 3 and never holding a tag |
| `NewsSection.Excerpt` | components/news-section.tsx:84 | a news item's excerpt is its stripped contents when they fit in 300 characters, otherwise the first 300 characters of the stripped contents then "..."; at most 303 characters and tag-free |
| `PlayerChart.MaxPlayers` | components/player-chart.tsx:69 | at least 1, at least every players value, and either 1 or attained by some point |
| `PlayerChart.Step` | components/player-chart.tsx:72-74 | 1 for at most 60 points; otherwise the ceiling of length / 60 |
| `PlayerChart.SampledHistory` | components/player-chart.tsx:75 | a subsequence of the history; for a non-empty history the first and last points are kept; at most 60 points are kept unchanged |
| `PlayerChart.SampledHistoryPoints` | components/player-chart.tsx:72-75 | bar j is the point at index j * step for every multiple of the step inside the history, and there are ceil(length / step) bars plus one more (the last point) when the last index is not a multiple |
| `PlayerChart.SampledHistoryBound` | components/player-chart.tsx:72-75 | never more than 61 bars |
| `Navbar.NavLinks` | components/navbar.tsx:14-19 | four links, every href starting with '/', and only the wishlist link has a badge |
| `Navbar.IsActive` | components/navbar.tsx:21-24 | the home link exactly on "/", any other link exactly when its href is a prefix of the path |
| `Navbar.AtMostOneActive` | components/navbar.tsx:14-24 | for any path, no two of the four links are active together |
| `Navbar.EachLinkActiveOnItsPage` | components/navbar.tsx:21-24 | each link is active on its own href |
| `Navbar.WishlistBadge` | components/navbar.tsx:51-53 | no badge exactly for 0; "99+" above 99; otherwise exactly the decimal rendering of the count, with no leading zero and nothing after it |
| `GameCard.ScoreColor` | components/game-card.tsx:33-37 | green exactly from 80, yellow exactly for 60-79, red exactly below 60 |
| `GameCard.SplitInTwo` | components/game-card.tsx:41-42 | `split(' .. ')` yields two pieces exactly when the separator occurs and not again after its first occurrence |
| `GameCard.FormatOwners` | components/game-card.tsx:39-46 | nothing exactly for an absent or empty string; with one separator, the text before and after it joined by " - " plus " owners"; otherwise the string unchanged |
| `GameCard.OwnersRangeFormatted` | components/game-card.tsx:41-44 | "a .. b" with no '.' in a or b becomes "a - b owners" |
| `GameCard.OwnersWithoutRange` | components/game-card.tsx:45 | a string without the separator is returned as it is |
| `GameCard.FormatPrice` | components/game-card.tsx:48-53 | Free exactly when isFree or the price is "0"; no price exactly when not free and the price is absent or empty |
| `GameCard.ImageUrl` | components/game-card.tsx:56 | a non-empty header image is used; otherwise the URL reads back as the app's header.jpg |
| `TopGamesPage.RankIsPosition` | app/top-games/page.tsx:85 | row i of page p shows the game at position rank (1-based) of the whole ranked list, so ranks are >= 1 and within the list |
| `TopGamesPage.RanksContinue` | app/top-games/page.tsx:85 | ranks are consecutive within a page and the next page continues after rank 100 of the previous one |
| `TopGamesPage.Score` | app/top-games/page.tsx:86-89 | with reviews, the integer nearest to 100 * positive / total (halves up); without, the userscore; in [0, 100] for non-negative counts |
| `TopGamesPage.RatingBadge` | app/top-games/page.tsx:48-52 | a badge exactly for a positive score, green from 80 and red below 60 |
| `TopGamesPage.PriceDisplay` | app/top-games/page.tsx:91 | Free exactly for "0", empty exactly for "" |
| `TopGamesPage.PriceDisplayMatchesCard` | app/top-games/page.tsx:91 | the page labels every price as a non-free game card does |
| `TopGamesPage.PrevPage` | app/top-games/page.tsx:159 | one page back, never below 1 |
| `TopGamesPage.NextPage` | app/top-games/page.tsx:169 | one page on, never past totalPages |
| `TopGamesPage.PageStaysInRange` | app/top-games/page.tsx:159-169 | from a page in [1, totalPages] both buttons stay in [1, totalPages] |
| `HeroBanner.Tick` | components/hero-banner.tsx:45 | the next index is below the number of games, one more or back to 0 after the last |
| `HeroBanner.TicksAdvance` | components/hero-banner.tsx:45 | k <= n ticks move k places round the carousel, wrapping once |
| `HeroBanner.FullCycleReturns` | components/hero-banner.tsx:45 | after as many ticks as games the index is back where it started |
| `HeroBanner.SentimentVariant` | components/hero-banner.tsx:88-94 | default exactly without overall data; otherwise positive exactly for average > 1, negative exactly for average < -1, neutral otherwise |
| `HeroBanner.VariantIsAverageLabel` | components/hero-banner.tsx:88-94 | the variant is the review label of the average score |
| `HeroBanner.SentimentPercentage` | components/hero-banner.tsx:96-100 | 0 without data or reviews; otherwise the integer nearest to 100 * positive / total, in [0, 100] when positive <= total |
| `HeroBanner.PercentageOfStats` | components/hero-banner.tsx:96-100 | for statistics computed from any batch the percentage is in [0, 100] |
| `Sorting.SortIsStable` | lib/steamspy-api.ts:176-180 | the insertion sort is stable: elements that compare equal come out in their input order, as `Array.prototype.sort` guarantees |
| `SteamApi.SearchGames` | lib/steam-api.ts:28-41 | at most 20 results, every one matching the lowercased query, a subsequence of the app list, and exactly the first min(20, #matches) matches |
| `SteamApi.EmptyQueryMatchesAll` | lib/steam-api.ts:35-36 | the empty query returns the first 20 apps |
| `SteamApi.SearchReturnsAllMatchesWhenFew` | lib/steam-api.ts:34-36 | with at most 20 matches all of them are returned |
| `SteamApi.PopularGameIds` | lib/steam-api.ts:111-134 | twenty distinct app ids |
| `SteamApi.ReviewRequestParams` | lib/steam-api.ts:84-91 | json is 1 and purchase_type "all"; each field is the caller's setting when that is non-falsy and otherwise its own default ('*', 20, 'recent', 'english'); no field ends up empty or 0; no settings gives the defaults |
| `SteamApi.FalsyOptionsGiveDefaults` | lib/steam-api.ts:84-91 | "" and 0 settings give the defaults '*', 20, 'recent', 'english', like no settings |
| `SteamImages.AssetUrl` | lib/steam-image-api.ts:4-20 | the URL is the CDN prefix followed by the app id as written by `${appId}` (no leading zero), and reads back as that id and the kind's file name |
| `SteamImages.HeaderImage` | lib/steam-image-api.ts:4-6 | the CDN prefix and the app id as written, reading back as the app id and header.jpg |
| `SteamImages.CapsuleImage` | lib/steam-image-api.ts:11-13 | the CDN prefix and the app id as written, reading back as the app id and capsule_616x353.jpg |
| `SteamImages.LibraryCapsuleImage` | lib/steam-image-api.ts:18-20 | the CDN prefix and the app id as written, reading back as the app id and library_600x900.jpg |
| `SteamImages.ParseAssetUrlInverse` | lib/steam-image-api.ts:4-20 | a URL reads back as an app and a kind's file name exactly when it is that app's URL of that kind |
| `SteamImages.AssetUrlInjective` | lib/steam-image-api.ts:4-20 | two image URLs are equal exactly for the same app and kind: each builder is injective and the builders never coincide |
| `SteamImages.AssetHostAllowed` | next.config.ts:14-17 | image URLs are https URLs on shared.akamai.steamstatic.com, one of the allowed remote image hosts |
| `SteamCommunity.CommunityHubUrl` | lib/steam-community-api.ts:46-48 | /app/ followed by the app id as written (no leading zero), reading back as the hub of the app |
| `SteamCommunity.DiscussionsUrl` | lib/steam-community-api.ts:53-55 | reads back as the app's discussions; the hub URL is a proper prefix |
| `SteamCommunity.WorkshopUrl` | lib/steam-community-api.ts:60-62 | reads back as the app's workshop; the hub URL is a proper prefix |
| `SteamCommunity.GuidesUrl` | lib/steam-community-api.ts:67-69 | reads back as the app's guides; the hub URL is a proper prefix |
| `SteamCommunity.AchievementsUrl` | lib/steam-community-api.ts:74-76 | /stats/ followed by the app id as written, reading back as the app's achievements; never under /app/ |
| `SteamCommunity.ParseCommunityUrlInverse` | lib/steam-community-api.ts:46-76 | every URL the parser accepts is exactly the builders' URL of the page it reads, so reading back is an inverse |
| `SteamCommunity.CommunityUrlInjective` | lib/steam-community-api.ts:46-76 | two community URLs are equal exactly for the same page of the same app |
| `SteamCommunity.WorkshopItems` | lib/steam-community-api.ts:36-41 | nothing, for every app id |

## Left out

- analyzeSentiment internals: the `sentiment` package's scoring is an uninterpreted `Analyzer` parameter, so nothing is claimed about scores beyond what the labelling and statistics do with them.
- Network I/O: the axios and `fetch` calls, `getTop100Games`, `getGamesByGenre`/`getGamesByTag`, `getAllSteamApps`, `getGameDetails`, `getGameNews` and the reviews HTTP call. They are parameters or are not modelled. `NextResponse` becomes a result datatype with the same messages.
- React machinery: state, effects, the 5-second carousel interval, loading states and JSX. Each handler is modelled as the pure state update it performs.
- Wishlist persistence: localStorage load and save, and JSON parsing. `Date.now()` is a parameter.
- `getRandomGamesForBanner`: its `Math.random` shuffle is randomness.
- Floating point: averages and percentages are exact rationals, so float rounding in `reduce`, `/` and `Math.round` is not modelled.
- Formatting and locale: `toFixed` price strings, `formatNumber`/`formatCCU`, `toLocaleString` and bar heights are not modelled. `GameCard.FormatPrice` and `TopGamesPage.PriceDisplay` return the raw price string for the dollar case.
- SteamSpy.NameFirst: `localeCompare` is replaced by lexicographic order on Unicode code points, since a Dafny `char` is a code point. This is neither locale order nor JavaScript's UTF-16 order: the two disagree, for example, between characters beyond U+FFFF and characters in U+E000-U+FFFF.
- `parseInt`/`parseFloat` edge cases:
  - Query parameters arrive as integers, and `perPage >= 1` is required (`perPage` 0 or NaN gives `Infinity`/`NaN` pages).
  - SteamSpy.PriceCents reads a price as the whole number of cents in its leading decimal digits, which differs from `parseFloat` in several ways.
    - A fractional part is dropped, so such prices can be binned differently. "0.5" is free in the model, where the code puts it under 10 dollars. "3000.5" is 10-30 dollars in the model, where the code puts it over 30.
    - Leading blanks, a '+' sign, a leading '.', an exponent ("1e3") and "Infinity" are all unparsable (`None`) in the model, while `parseFloat` accepts them.
    - A leading '-' is unparsable in the model. For "-0" this differs from the code, where `-0 === 0` makes the game free. Other negative prices fall in no named range in both.
- `toISOString`: the `RangeError` for timestamps outside the JavaScript date range is not modelled.
- Lowercasing is ASCII-only: `toLowerCase` on non-ASCII letters is not modelled.
- WishlistGame.headerImage: the optional field is a string, with "" standing for absent, as the page only tests it for truthiness.
- App ids in URLs: the `SteamImages` and `SteamCommunity` URL builders take non-negative integers, while the code formats any JavaScript number. Negative and fractional ids are not modelled.
- SteamCommunity.WorkshopItems: the `console.warn` it issues is not modelled. `getGameNews` is HTTP and is not modelled.
- NewsSection.TruncateText: lengths and the cut position count Unicode code points, where JavaScript's `length` and `substring` count UTF-16 units. The two differ for text with characters beyond U+FFFF, such as emoji. For "😀😀😀" with maxLength 4, the code sees length 6 and returns "😀😀...", while the model sees length 3 and returns the text unchanged. A cut inside a surrogate pair cannot be expressed with Dafny strings. `NewsSection.Excerpt` inherits this difference.
- Input immutability: "the input is unchanged" (for `sortGames`' copy and the wishlist page's spread copy) holds by construction, since Dafny values are immutable.
- The `sortBy = 'players'` default parameter of `sortGames` is never exercised, because the route calls it only when `sortBy` is present.

=== FILE: category_games_route.dfy ===
/** The `GET /api/categories/games` handler
    (app/api/categories/games/route.ts): validates `type` and `value`,
    fetches the games of one genre or tag, and returns one page. The two
    SteamSpy fetches are parameters: `None` stands for a failed request. */
module CategoryGamesRoute {

  import opened Wrappers
  import SteamSpy
  import Pagination

  /** The query string, already parsed; `None` is absent or empty. */
  datatype Query = Query(
    categoryType: Option<string>,
    value: Option<string>,
    page: Option<int>,
    perPage: Option<int>)

  datatype Response =
    | Ok(body: Pagination.PagedBody<SteamSpy.SteamSpyGame>)
    | BadRequest(error: string)
    | ServerError(error: string)

  type Fetch = string -> Option<seq<SteamSpy.SteamSpyGame>>

  const MissingParameters: string := "Type and value parameters are required"
  const InvalidType: string := "Invalid type parameter. Must be \"genre\" or \"tag\""
  const FetchFailed: string := "Failed to fetch games"

  function PageOf(q: Query): int { if q.page.Some? then q.page.value else 1 }

  function PerPageOf(q: Query): int { if q.perPage.Some? then q.perPage.value else 20 }

  /** `!type || !value`. */
  predicate MissingParameter(q: Query) {
    q.categoryType.None? || q.categoryType.value == "" || q.value.None? || q.value.value == ""
  }

  /** `GET`: 400 for a missing parameter or an unknown type (before any
      fetch), 500 when the chosen fetch fails, otherwise one page of the
      full list. */
  function Get(q: Query, byGenre: Fetch, byTag: Fetch): (r: Response)
    requires PerPageOf(q) >= 1
    ensures MissingParameter(q) ==> r == BadRequest(MissingParameters)
    ensures !MissingParameter(q) && q.categoryType.value != "genre" && q.categoryType.value != "tag"
      ==> r == BadRequest(InvalidType)
    ensures r.Ok? ==> !MissingParameter(q) && q.categoryType.value in {"genre", "tag"}
    ensures r.Ok? ==>
      var fetched := if q.categoryType.value == "genre" then byGenre(q.value.value) else byTag(q.value.value);
      && fetched.Some?
      && r.body.total == |fetched.value|
      && r.body.totalPages * r.body.perPage >= r.body.total
      && (r.body.totalPages - 1) * r.body.perPage < r.body.total
      && r.body.page == PageOf(q) && r.body.perPage == PerPageOf(q)
      && (PageOf(q) >= 1 ==> |r.body.games| <= PerPageOf(q))
      && (PageOf(q) >= 1 ==>
            var start := Pagination.PageStart(PageOf(q), PerPageOf(q));
            r.body.games == fetched.value[Pagination.Min(start, |fetched.value|)..Pagination.Min(start + PerPageOf(q), |fetched.value|)])
    ensures r.ServerError? <==>
      (&& !MissingParameter(q)
       && ((q.categoryType.value == "genre" && byGenre(q.value.value).None?)
           || (q.categoryType.value == "tag" && byTag(q.value.value).None?)))
  {
    if MissingParameter(q) then BadRequest(MissingParameters)
    else
      if q.categoryType.value != "genre" && q.categoryType.value != "tag" then BadRequest(InvalidType)
      else
        var fetched := if q.categoryType.value == "genre" then byGenre(q.value.value) else byTag(q.value.value);
        if fetched.None? then ServerError(FetchFailed)
        else Ok(Pagination.Paginate(fetched.value, PageOf(q), PerPageOf(q)))
  }

  /** Without a valid `type` and `value` the answer does not depend on the
      fetchers at all: nothing is fetched. */
  lemma InvalidQueryFetchesNothing(q: Query, g1: Fetch, t1: Fetch, g2: Fetch, t2: Fetch)
    requires PerPageOf(q) >= 1
    requires MissingParameter(q) || q.categoryType.value !in {"genre", "tag"}
    ensures Get(q, g1, t1) == Get(q, g2, t2)
    ensures Get(q, g1, t1).BadRequest?
  {
  }
}

=== FILE: game_card.dfy ===
/** The display rules of components/game-card.tsx: the colour of a score,
    the owners range, the price label and the image fallback. */
module GameCard {

  import opened Wrappers
  import Strings
  import SteamImages

  datatype ScoreTone = Green | Yellow | Red

  /** `getScoreColor`: green from 80, yellow from 60, red below. */
  function ScoreColor(score: int): (tone: ScoreTone)
    ensures tone == Green <==> score >= 80
    ensures tone == Yellow <==> 60 <= score < 80
    ensures tone == Red <==> score < 60
  {
    if score >= 80 then Green else if score >= 60 then Yellow else Red
  }

  const OwnersSeparator: string := " .. "

  /** The separator occurs, and occurs nowhere after its first occurrence:
      `split` yields exactly two pieces. */
  predicate OneSeparator(s: string) {
    var i := Strings.IndexOf(s, OwnersSeparator);
    i.Some? && Strings.IndexOf(s[i.value + |OwnersSeparator|..], OwnersSeparator).None?
  }

  /** Two pieces exactly when there is one separator. */
  lemma SplitInTwo(s: string)
    ensures |Strings.Split(s, OwnersSeparator)| == 2 <==> OneSeparator(s)
    ensures OneSeparator(s) ==>
      var i := Strings.IndexOf(s, OwnersSeparator).value;
      Strings.Split(s, OwnersSeparator) == [s[..i], s[i + |OwnersSeparator|..]]
  {
    var i := Strings.IndexOf(s, OwnersSeparator);
    if i.Some? {
      Strings.SplitUnfold(s, OwnersSeparator);
      var rest := s[i.value + |OwnersSeparator|..];
      if Strings.IndexOf(rest, OwnersSeparator).Some? {
        Strings.SplitUnfold(rest, OwnersSeparator);
      }
    }
  }

  /** `formatOwners`: nothing for an absent or empty string; "a - b owners"
      when `split(' .. ')` gives two pieces; the string itself otherwise. */
  function FormatOwners(owners: Option<string>): (r: Option<string>)
    ensures r.None? <==> owners.None? || owners.value == ""
    ensures r.Some? && OneSeparator(owners.value) ==>
      var s := owners.value;
      var i := Strings.IndexOf(s, OwnersSeparator).value;
      r.value == s[..i] + " - " + s[i + |OwnersSeparator|..] + " owners"
    ensures r.Some? && !OneSeparator(owners.value) ==> r == owners
  {
    if owners.None? || owners.value == "" then None
    else
      var s := owners.value;
      var parts := Strings.Split(s, OwnersSeparator);
      SplitInTwo(s);
      if |parts| == 2 then Some(parts[0] + " - " + parts[1] + " owners") else Some(s)
  }

  /** A string without any '.' holds no separator. */
  lemma NoDotNoSeparator(s: string)
    requires '.' !in s
    ensures Strings.IndexOf(s, OwnersSeparator).None?
  {
    forall j | 0 <= j <= |s|
      ensures !Strings.OccursAt(s, OwnersSeparator, j)
    {
      if j + |OwnersSeparator| <= |s| {
        assert s[j..j + |OwnersSeparator|][1] == s[j + 1] != '.';
      }
    }
  }

  /** In `a .. b` with no '.' in `a`, the first separator follows `a`. */
  lemma FirstSeparatorAfter(a: string, b: string)
    requires '.' !in a
    ensures Strings.IndexOf(a + OwnersSeparator + b, OwnersSeparator) == Some(|a|)
  {
    var s := a + OwnersSeparator + b;
    assert s[|a|..|a| + |OwnersSeparator|] == OwnersSeparator;
    assert Strings.OccursAt(s, OwnersSeparator, |a|);
    forall j | 0 <= j < |a|
      ensures !Strings.OccursAt(s, OwnersSeparator, j)
    {
      if j + 1 < |a| {
        assert s[j..j + |OwnersSeparator|][1] == a[j + 1] != '.';
      } else {
        assert s[j..j + |OwnersSeparator|][1] == ' ';
      }
    }
  }

  /** SteamSpy's owner ranges, such as "1,000,000 .. 2,000,000", come out
      as "1,000,000 - 2,000,000 owners". */
  lemma OwnersRangeFormatted(a: string, b: string)
    requires '.' !in a && '.' !in b
    ensures FormatOwners(Some(a + OwnersSeparator + b)) == Some(a + " - " + b + " owners")
  {
    var s := a + OwnersSeparator + b;
    FirstSeparatorAfter(a, b);
    assert s[..|a|] == a;
    assert s[|a| + |OwnersSeparator|..] == b;
    NoDotNoSeparator(b);
  }

  /** A string without the separator is shown as it is. */
  lemma OwnersWithoutRange(s: string)
    requires s != "" && Strings.IndexOf(s, OwnersSeparator).None?
    ensures FormatOwners(Some(s)) == Some(s)
  {
  }

  datatype PriceLabel = Free | NoPrice | Dollars(cents: string)

  /** `formatPrice`: "Free" whenever the game is free or its price is "0",
      checked first; nothing for an absent or empty price; otherwise the
      dollar amount of the price in cents (its rendering is not modelled). */
  function FormatPrice(isFree: bool, price: Option<string>): (r: PriceLabel)
    ensures r == Free <==> isFree || price == Some("0")
    ensures r == NoPrice <==> !isFree && (price.None? || price.value == "")
    ensures r.Dollars? ==> price == Some(r.cents) && r.cents != "" && r.cents != "0"
  {
    if isFree || price == Some("0") then Free
    else if price.None? || price.value == "" then NoPrice
    else Dollars(price.value)
  }

  /** `header_image || getSteamHeaderImage(appid)`. */
  function ImageUrl(headerImage: Option<string>, appid: nat): (url: string)
    ensures headerImage.Some? && headerImage.value != "" ==> url == headerImage.value
    ensures headerImage.None? || headerImage.value == "" ==>
      SteamImages.ParseAssetUrl(url) == Some(SteamImages.AssetRef(appid, "header.jpg"))
  {
    if headerImage.Some? && headerImage.value != "" then headerImage.value
    else SteamImages.HeaderImage(appid)
  }
}

=== FILE: hero_banner.dfy ===
/** The rotating banner of components/hero-banner.tsx: the carousel index
    advanced every five seconds, and the sentiment badge of the game on
    show, computed from the sentiment route's overall statistics. */
module HeroBanner {

  import opened Wrappers
  import Seqs
  import SentimentAnalysis

  /** One timer tick: `(prev + 1) % games.length`. No timer runs while the
      list is empty, so the index then stays where it is. */
  function Tick(prev: nat, count: nat): (next: nat)
    ensures count > 0 ==> next < count
    ensures count > 0 && prev + 1 < count ==> next == prev + 1
    ensures count > 0 && prev + 1 == count ==> next == 0
    ensures count == 0 ==> next == prev
  {
    if count == 0 then prev else (prev + 1) % count
  }

  /** The index after `k` ticks. */
  function Ticks(start: nat, count: nat, k: nat): nat
    decreases k
  {
    if k == 0 then start else Tick(Ticks(start, count, k - 1), count)
  }

  /** From a valid index, `k` ticks (at most one round) move `k` places
      forward, wrapping past the last game to the first. */
  lemma {:induction false} TicksAdvance(start: nat, count: nat, k: nat)
    requires start < count && k <= count
    ensures Ticks(start, count, k) == if start + k < count then start + k else start + k - count
    decreases k
  {
    if k > 0 {
      TicksAdvance(start, count, k - 1);
    }
  }

  /** After one tick per game, the banner is back where it started. */
  lemma FullCycleReturns(start: nat, count: nat)
    requires start < count
    ensures Ticks(start, count, count) == start
  {
    TicksAdvance(start, count, count);
  }

  datatype Variant = Default | Sentiment(tone: SentimentAnalysis.Label)

  /** `getSentimentVariant`: "default" without overall data, otherwise the
      label of the average score, with the same thresholds as a single
      review's label. */
  function SentimentVariant(overall: Option<SentimentAnalysis.Overall>): (v: Variant)
    ensures v == Default <==> overall.None?
    ensures overall.Some? ==>
      && (v == Sentiment(SentimentAnalysis.Positive) <==> overall.value.averageScore > 1.0)
      && (v == Sentiment(SentimentAnalysis.Negative) <==> overall.value.averageScore < -1.0)
      && (v == Sentiment(SentimentAnalysis.Neutral) <==> -1.0 <= overall.value.averageScore <= 1.0)
  {
    if overall.None? then Default
    else
      var avg := overall.value.averageScore;
      if avg > 1.0 then Sentiment(SentimentAnalysis.Positive)
      else if avg < -1.0 then Sentiment(SentimentAnalysis.Negative)
      else Sentiment(SentimentAnalysis.Neutral)
  }

  /** The banner's variant is the label a review with the batch's average
      score would get. */
  lemma VariantIsAverageLabel(o: SentimentAnalysis.Overall)
    ensures SentimentVariant(Some(o)) == Sentiment(SentimentAnalysis.GetSentimentLabel(o.averageScore))
  {
  }

  /** `getSentimentPercentage`: the share of positive reviews in percent,
      rounded, or 0 without data or without reviews. */
  function SentimentPercentage(overall: Option<SentimentAnalysis.Overall>): (pct: int)
    ensures overall.None? || overall.value.totalReviews == 0 ==> pct == 0
    ensures overall.Some? && overall.value.totalReviews > 0 ==>
      var o := overall.value;
      2 * pct * o.totalReviews - o.totalReviews <= 200 * o.positiveCount < 2 * pct * o.totalReviews + o.totalReviews
    ensures overall.Some? && overall.value.positiveCount <= overall.value.totalReviews ==> 0 <= pct <= 100
  {
    if overall.None? || overall.value.totalReviews == 0 then 0
    else
      var o := overall.value;
      var pct := Seqs.RoundDiv(100 * o.positiveCount, o.totalReviews);
      assert o.positiveCount <= o.totalReviews ==> 0 <= pct <= 100 by {
        if o.positiveCount <= o.totalReviews {
          Seqs.PercentBounds(o.positiveCount, o.totalReviews);
        }
      }
      pct
  }

  /** For statistics computed from a batch of reviews the percentage is
      always a valid percentage. */
  lemma PercentageOfStats(rs: seq<SentimentAnalysis.ReviewWithSentiment>)
    ensures var pct := SentimentPercentage(Some(SentimentAnalysis.CalculateSentimentStats(rs).overall));
      0 <= pct <= 100
  {
  }
}

=== FILE: navbar.dfy ===
/** The navigation bar of components/navbar.tsx: which link is highlighted
    for the current path, and the wishlist badge. */
module Navbar {

  import opened Wrappers
  import Strings

  datatype NavLink = NavLink(href: string, title: string, hasBadge: bool)

  /** The four links, in display order; only the wishlist carries the
      count badge. */
  function NavLinks(): (links: seq<NavLink>)
    ensures |links| == 4
    ensures forall i :: 0 <= i < |links| ==> |links[i].href| >= 1 && links[i].href[0] == '/'
    ensures forall i :: 0 <= i < |links| ==> (links[i].hasBadge <==> links[i].href == "/wishlist")
  {
    [ NavLink("/", "Home", false),
      NavLink("/top-games", "Top Games", false),
      NavLink("/browse", "Browse", false),
      NavLink("/wishlist", "Wishlist", true) ]
  }

  /** `isActive`: the home link only on "/" itself, every other link on
      any path that starts with its href. */
  function IsActive(pathname: string, href: string): (r: bool)
    ensures href == "/" ==> (r <==> pathname == "/")
    ensures href != "/" ==> (r <==> href <= pathname)
  {
    if href == "/" then pathname == "/" else href <= pathname
  }

  /** For every path, at most one link of the bar is highlighted. */
  lemma AtMostOneActive(pathname: string, i: nat, j: nat)
    requires i < j < |NavLinks()|
    ensures IsActive(pathname, NavLinks()[i].href) ==> !IsActive(pathname, NavLinks()[j].href)
  {
    var links := NavLinks();
    var a, b := links[i].href, links[j].href;
    if IsActive(pathname, a) {
      if i == 0 {
        assert pathname == "/";
      } else {
        assert |a| > 1 && a <= pathname;
        assert pathname[1] == a[1] != b[1];
      }
    }
  }

  /** Each page highlights its own link. */
  lemma EachLinkActiveOnItsPage(i: nat)
    requires i < |NavLinks()|
    ensures IsActive(NavLinks()[i].href, NavLinks()[i].href)
  {
  }

  /** The badge on the wishlist link: hidden for zero, "99+" above 99,
      the count itself otherwise. */
  datatype Badge = NoBadge | BadgeText(text: string)

  function WishlistBadge(count: nat): (b: Badge)
    ensures b.NoBadge? <==> count == 0
    ensures count > 99 ==> b == BadgeText("99+")
    ensures 1 <= count <= 99 ==> b.BadgeText? && Strings.ParseLeadingNat(b.text) == Some(count)
    ensures 1 <= count <= 99 ==> b.BadgeText? && Strings.SplitLeadingNat(b.text) == Some(Strings.NumberThen(count, ""))
    ensures b.BadgeText? ==> 1 <= |b.text| <= 3
  {
    if count == 0 then NoBadge
    else if count > 99 then BadgeText("99+")
    else
      var text := Strings.NatToString(count);
      Strings.ParseRendered(count);
      Strings.SplitRendered(count, "");
      assert text + "" == text;
      BadgeText(text)
  }
}

=== FILE: news_section.dfy ===
/** The news excerpt of components/news-section.tsx: `truncateText` removes
    everything that looks like an HTML tag, `text.replace(/<[^>]*>/g, '')`,
    then cuts the text to `maxLength` characters plus an ellipsis. */
module NewsSection {

  import Seqs

  /** No '<' is followed, anywhere later, by a '>': the regular expression
      finds nothing to remove. */
  predicate TagFree(s: string) {
    forall i, j :: 0 <= i < j < |s| && s[i] == '<' ==> s[j] != '>'
  }

  /** Position of the first `c` in `s`. */
  function FirstIndex(s: string, c: char): (k: nat)
    requires c in s
    ensures k < |s| && s[k] == c && c !in s[..k]
  {
    if s[0] == c then 0
    else
      var k := FirstIndex(s[1..], c) + 1;
      assert s[..k] == [s[0]] + s[1..][..k - 1];
      k
  }

  /** The global replace of `/<[^>]*>/` by "": scanning from the left, a
      '<' that has a '>' somewhere after it starts a match that ends at the
      first such '>', and the whole match is dropped; a '<' with no '>'
      after it is ordinary text. */
  function StripTags(s: string): (r: string)
    ensures Seqs.IsSubsequence(r, s)
    ensures TagFree(r)
    decreases |s|
  {
    if |s| == 0 then []
    else if s[0] == '<' && '>' in s[1..] then
      var k := FirstIndex(s[1..], '>') + 2;
      var r := StripTags(s[k..]);
      Seqs.SubsequenceOfSuffix(r, s, k);
      r
    else
      var tail := StripTags(s[1..]);
      var r := [s[0]] + tail;
      assert r[1..] == tail;
      forall j | 0 < j < |r| && s[0] == '<'
        ensures r[j] != '>'
      {
        Seqs.SubsequenceMember(tail, s[1..], j - 1);
      }
      r
  }

  /** Text that holds no tag is left exactly as it is. */
  lemma {:induction false} StripTagFree(s: string)
    requires TagFree(s)
    ensures StripTags(s) == s
    decreases |s|
  {
    if |s| > 0 {
      assert TagFree(s[1..]);
      if s[0] == '<' {
        assert '>' !in s[1..];
      }
      StripTagFree(s[1..]);
    }
  }

  /** Stripping twice is stripping once. */
  lemma StripIdempotent(s: string)
    ensures StripTags(StripTags(s)) == StripTags(s)
  {
    StripTagFree(StripTags(s));
  }

  /** In particular, text without any '<' comes back unchanged. */
  lemma NoOpenBracketUnchanged(s: string)
    requires '<' !in s
    ensures StripTags(s) == s
  {
    StripTagFree(s);
  }

  /** Text before the first '<' is kept as it is. */
  lemma {:induction false} StripKeepsPlainPrefix(p: string, s: string)
    requires '<' !in p
    ensures StripTags(p + s) == p + StripTags(s)
    decreases |p|
  {
    if |p| > 0 {
      var x := p + s;
      assert x[0] == p[0] != '<';
      assert x[1..] == p[1..] + s;
      assert StripTags(x) == [x[0]] + StripTags(x[1..]);
      StripKeepsPlainPrefix(p[1..], s);
      assert p == [p[0]] + p[1..];
    } else {
      assert p + s == s;
    }
  }

  /** A complete tag, from '<' to the first '>' after it, is dropped and
      the text after it is stripped in turn. */
  lemma StripDropsTag(t: string, s: string)
    requires '>' !in t
    ensures StripTags("<" + t + ">" + s) == StripTags(s)
  {
    var x := "<" + t + ">" + s;
    var rest := x[1..];
    assert rest == t + ">" + s;
    assert rest[|t|] == '>';
    assert forall i :: 0 <= i < |t| ==> rest[i] == t[i] != '>';
    var m := FirstIndex(rest, '>');
    assert forall i :: 0 <= i < m ==> rest[..m][i] == rest[i] != '>';
    assert m == |t|;
    assert x[|t| + 2..] == s;
  }

  /** `truncateText`: the stripped text when it fits, otherwise its first
      `maxLength` characters followed by "...". */
  function TruncateText(text: string, maxLength: nat): (r: string)
    ensures var stripped := StripTags(text);
      && (|stripped| <= maxLength ==> r == stripped)
      && (|stripped| > maxLength ==> |r| == maxLength + 3 && r[..maxLength] == stripped[..maxLength]
                                     && r[maxLength..] == "...")
    ensures |r| <= maxLength + 3
    ensures TagFree(r)
  {
    var stripped := StripTags(text);
    if |stripped| <= maxLength then stripped
    else
      var r := stripped[..maxLength] + "...";
      assert forall i :: 0 <= i < maxLength ==> r[i] == stripped[i];
      r
  }

  /** The excerpt length used for each news item. */
  const ExcerptLength: nat := 300

  /** The excerpt shown under a news title: its contents without tags, cut
      to `ExcerptLength` characters. */
  function Excerpt(contents: string): (r: string)
    ensures |r| <= ExcerptLength + 3 && TagFree(r)
    ensures |StripTags(contents)| <= ExcerptLength ==> r == StripTags(contents)
    ensures |StripTags(contents)| > ExcerptLength ==>
              |r| == ExcerptLength + 3 && r[..ExcerptLength] == StripTags(contents)[..ExcerptLength]
              && r[ExcerptLength..] == "..."
  {
    TruncateText(contents, ExcerptLength)
  }
}

=== FILE: pagination.dfy ===
/** The pagination shared by the two game-list routes
    (app/api/top-games/route.ts and app/api/categories/games/route.ts):
    `games.slice((page - 1) * perPage, (page - 1) * perPage + perPage)`
    with `Array.prototype.slice`'s handling of negative and oversized
    indices, and `totalPages = Math.ceil(games.length / perPage)`. */
module Pagination {

  import Seqs

  /** A `slice` argument resolved against a length: negative values count
      from the end, and everything is clamped into [0, len]. */
  function ResolveIndex(x: int, len: nat): (r: nat)
    ensures r <= len
    ensures 0 <= x <= len ==> r == x
    ensures x > len ==> r == len
    ensures x < 0 ==> r == (if len + x < 0 then 0 else len + x)
  {
    if x < 0 then (if len + x < 0 then 0 else len + x)
    else if x > len then len
    else x
  }

  function Min(a: int, b: int): int { if a <= b then a else b }

  /** `Array.prototype.slice(start, end)`. */
  function Slice<T>(s: seq<T>, start: int, end: int): (r: seq<T>)
    ensures 0 <= start <= end ==> r == s[Min(start, |s|)..Min(end, |s|)]
    ensures |r| <= |s|
  {
    var from := ResolveIndex(start, |s|);
    var to := ResolveIndex(end, |s|);
    if from < to then s[from..to] else []
  }

  /** `(page - 1) * perPage`: the number of games on the earlier pages. */
  function PageStart(page: int, perPage: int): (start: int)
    ensures page >= 1 && perPage >= 0 ==> start >= 0
  {
    PageStartNonNegative(page, perPage);
    (page - 1) * perPage
  }

  lemma PageStartNonNegative(page: int, perPage: int)
    ensures page >= 1 && perPage >= 0 ==> (page - 1) * perPage >= 0
  {
  }

  /** The games of page `page` (1-based) at `perPage` games per page. */
  function PageSlice<T>(s: seq<T>, page: int, perPage: int): seq<T> {
    var startIndex := PageStart(page, perPage);
    Slice(s, startIndex, startIndex + perPage)
  }

  /** The JSON body of a successful list response. */
  datatype PagedBody<T> = PagedBody(games: seq<T>, total: nat, page: int, perPage: int, totalPages: nat)

  /** The pagination tail of both route handlers. */
  function Paginate<T>(s: seq<T>, page: int, perPage: int): (b: PagedBody<T>)
    requires perPage >= 1
    ensures b.total == |s| && b.page == page && b.perPage == perPage
    ensures b.totalPages * perPage >= |s| && (b.totalPages - 1) * perPage < |s|
    ensures page >= 1 ==> |b.games| <= perPage
    ensures page >= 1 ==>
              var start := PageStart(page, perPage);
              b.games == s[Min(start, |s|)..Min(start + perPage, |s|)]
  {
    var games := PageSlice(s, page, perPage);
    var pages := Seqs.CeilDiv(|s|, perPage);
    PageSliceRange(s, page, perPage);
    PagedBody(games, |s|, page, perPage, pages)
  }

  /** From page 1 on, a page is the clipped range of `perPage` games that
      starts after the earlier pages. */
  lemma PageSliceRange<T>(s: seq<T>, page: int, perPage: int)
    requires perPage >= 1
    ensures page >= 1 ==> |PageSlice(s, page, perPage)| <= perPage
    ensures page >= 1 ==>
              var start := PageStart(page, perPage);
              PageSlice(s, page, perPage) == s[Min(start, |s|)..Min(start + perPage, |s|)]
  {
  }

  /** Page `n + 1` starts where page `n` ends. */
  lemma PageStartStep(n: nat, perPage: nat)
    ensures PageStart(n + 1, perPage) == PageStart(n, perPage) + perPage
  {
  }

  lemma MulMonotone(a: int, b: int, c: int)
    requires a <= b && c >= 0
    ensures a * c <= b * c
  {
  }

  /** Pages 1 to `n` put together. */
  function Pages<T>(s: seq<T>, perPage: int, n: nat): seq<T>
    decreases n
  {
    if n == 0 then [] else Pages(s, perPage, n - 1) + PageSlice(s, n, perPage)
  }

  lemma {:induction false} PagesArePrefix<T>(s: seq<T>, perPage: int, n: nat)
    requires perPage >= 1
    ensures Pages(s, perPage, n) == s[..Min(PageStart(n + 1, perPage), |s|)]
    decreases n
  {
    if n > 0 {
      PagesArePrefix(s, perPage, n - 1);
      PageStartStep(n, perPage);
      var a := Min(PageStart(n, perPage), |s|);
      var b := Min(PageStart(n + 1, perPage), |s|);
      assert s[..a] + s[a..b] == s[..b];
    }
  }

  /** Reading pages 1 to `totalPages` in turn gives back the whole list. */
  lemma AllPagesReassemble<T>(s: seq<T>, perPage: int)
    requires perPage >= 1
    ensures Pages(s, perPage, Paginate(s, 1, perPage).totalPages) == s
  {
    var n := Paginate(s, 1, perPage).totalPages;
    PagesArePrefix(s, perPage, n);
    assert PageStart(n + 1, perPage) == n * perPage >= |s|;
    assert s[..|s|] == s;
  }

  /** A page after the last one is empty. */
  lemma PageBeyondLastIsEmpty<T>(s: seq<T>, page: int, perPage: int)
    requires perPage >= 1
    requires page > Paginate(s, page, perPage).totalPages
    ensures Paginate(s, page, perPage).games == []
  {
    var n := Paginate(s, page, perPage).totalPages;
    PageStartNonNegative(page, perPage);
    MulMonotone(n, page - 1, perPage);
  }
}

=== FILE: player_chart.dfy ===
/** The concurrent-players chart of components/player-chart.tsx: the
    y-axis maximum and the down-sampling of a long history to about sixty
    bars. */
module PlayerChart {

  import Seqs

  datatype PlayerDataPoint = PlayerDataPoint(date: string, players: int)

  const MaxBars: nat := 60

  /** `Math.max(...history.map(d => d.players), 1)`. */
  function MaxPlayers(h: seq<PlayerDataPoint>): (m: int)
    ensures m >= 1
    ensures forall i :: 0 <= i < |h| ==> h[i].players <= m
    ensures m == 1 || exists i :: 0 <= i < |h| && h[i].players == m
    decreases |h|
  {
    if |h| == 0 then 1
    else
      var rest := MaxPlayers(h[1..]);
      assert forall i :: 1 <= i < |h| ==> h[i] == h[1..][i - 1];
      if h[0].players > rest then h[0].players else rest
  }

  /** Every `step`-th point is kept: one when the history fits, otherwise
      `Math.ceil(length / 60)`. */
  function Step(n: nat): (step: nat)
    ensures step >= 1
    ensures n <= MaxBars ==> step == 1
    ensures n > MaxBars ==> n <= step * MaxBars && (step - 1) * MaxBars < n
  {
    if n > MaxBars then Seqs.CeilDiv(n, MaxBars) else 1
  }

  /** The filter's test on the index. */
  predicate Kept(i: nat, n: nat, step: nat)
    requires step >= 1
  {
    i % step == 0 || i == n - 1
  }

  /** The points from index `i` on that pass the filter, in order. */
  function SampleFrom(h: seq<PlayerDataPoint>, i: nat, step: nat): (r: seq<PlayerDataPoint>)
    requires step >= 1 && i <= |h|
    ensures Seqs.IsSubsequence(r, h[i..])
    ensures i < |h| ==> |r| > 0 && r[|r| - 1] == h[|h| - 1]
    ensures i < |h| && i % step == 0 ==> r[0] == h[i]
    ensures step == 1 ==> r == h[i..]
    decreases |h| - i
  {
    if i == |h| then []
    else
      var rest := SampleFrom(h, i + 1, step);
      assert h[i..][1..] == h[i + 1..];
      if Kept(i, |h|, step) then [h[i]] + rest
      else
        Seqs.SubsequenceOfSuffix(rest, h[i..], 1);
        rest
  }

  /** `sampledHistory`: the points at the multiples of the step, in order,
      followed by the last point when its index is not a multiple. */
  function SampledHistory(h: seq<PlayerDataPoint>): (r: seq<PlayerDataPoint>)
    ensures Seqs.IsSubsequence(r, h)
    ensures |h| > 0 ==> |r| > 0 && r[0] == h[0] && r[|r| - 1] == h[|h| - 1]
    ensures |h| <= MaxBars ==> r == h
  {
    assert h[0..] == h;
    SampleFrom(h, 0, Step(|h|))
  }

  /** Exactly which points the sample keeps: the `j`-th bar is the point at
      index `j * step`, for every multiple of the step inside the history,
      and one more bar holds the last point when its index is not a
      multiple. */
  lemma SampledHistoryPoints(h: seq<PlayerDataPoint>)
    ensures var r, step := SampledHistory(h), Step(|h|);
      |r| == Seqs.CeilDiv(|h|, step) + (if |h| > 0 && (|h| - 1) % step != 0 then 1 else 0)
    ensures var r, step := SampledHistory(h), Step(|h|);
      forall j: nat :: j * step < |h| ==> j < |r| && r[j] == h[j * step]
  {
    var r, step := SampledHistory(h), Step(|h|);
    SampleFromCount(h, 0, step);
    MultiplesFromZero(|h|, step);
    forall j: nat | j * step < |h|
      ensures j < |r| && r[j] == h[j * step]
    {
      SampleAtMultiple(h, step, j);
    }
  }

  /** The `j`-th bar of the whole-history sample is the point at `j * step`. */
  lemma SampleAtMultiple(h: seq<PlayerDataPoint>, step: nat, j: nat)
    requires step >= 1 && j * step < |h|
    ensures j < |SampleFrom(h, 0, step)| && SampleFrom(h, 0, step)[j] == h[j * step]
  {
    MultiplesBelow(j, step);
    SampleFromAt(h, 0, step, j * step);
  }

  /** Counting from zero, the multiples below `n` number `ceil(n / step)`. */
  lemma MultiplesFromZero(n: nat, step: nat)
    requires step >= 1
    ensures Multiples(0, n, step) == Seqs.CeilDiv(n, step)
  {
    MultiplesCount(0, n, step);
    assert Seqs.CeilDiv(0, step) == 0;
  }

  /** The `j`-th multiple of `step` has exactly `j` multiples below it. */
  lemma MultiplesBelow(j: nat, step: nat)
    requires step >= 1
    ensures (j * step) % step == 0 && Multiples(0, j * step, step) == j
  {
    CeilOfMultiple(j, step);
    MultiplesFromZero(j * step, step);
  }

  /** The sample from `i` on holds one bar per multiple of the step, plus
      the last point when its index is not a multiple. */
  lemma {:induction false} SampleFromCount(h: seq<PlayerDataPoint>, i: nat, step: nat)
    requires step >= 1 && i <= |h|
    ensures |SampleFrom(h, i, step)| ==
              Multiples(i, |h|, step) + (if i < |h| && (|h| - 1) % step != 0 then 1 else 0)
    decreases |h| - i
  {
    if i < |h| {
      SampleFromCount(h, i + 1, step);
    }
  }

  /** Where a point lands: the point at a multiple `k` of the step comes
      right after the multiples before it. */
  lemma {:induction false} SampleFromAt(h: seq<PlayerDataPoint>, i: nat, step: nat, k: nat)
    requires step >= 1 && i <= k < |h| && k % step == 0
    ensures Multiples(i, k, step) < |SampleFrom(h, i, step)|
    ensures SampleFrom(h, i, step)[Multiples(i, k, step)] == h[k]
    decreases k - i
  {
    if i < k {
      SampleFromAt(h, i + 1, step, k);
      assert Multiples(i, k, step) == (if i % step == 0 then 1 else 0) + Multiples(i + 1, k, step);
    }
  }

  /** `j * step` is a multiple of `step`, and `ceil(j * step / step)` is `j`. */
  lemma CeilOfMultiple(j: nat, step: nat)
    requires step >= 1
    ensures (j * step) % step == 0
    ensures Seqs.CeilDiv(j * step, step) == j
  {
    var k := j * step;
    assert (j + 1) * step == k + step;
    DivIs(k, step, j);
    DivIs(k + step - 1, step, j);
  }

  /** Number of multiples of `step` in [i, n). */
  function Multiples(i: nat, n: nat, step: nat): nat
    requires step >= 1
    decreases n - i
  {
    if i >= n then 0 else (if i % step == 0 then 1 else 0) + Multiples(i + 1, n, step)
  }

  /** Every kept index but possibly the last is a multiple of `step`. */
  lemma {:induction false} SampleFromLength(h: seq<PlayerDataPoint>, i: nat, step: nat)
    requires step >= 1 && i <= |h|
    ensures |SampleFrom(h, i, step)| <= Multiples(i, |h|, step) + 1
    decreases |h| - i
  {
    if i < |h| {
      SampleFromLength(h, i + 1, step);
      if i == |h| - 1 {
        assert SampleFrom(h, i + 1, step) == [];
      }
    }
  }

  /** `a / b == q` for the `q` with `q * b <= a < (q + 1) * b`. */
  lemma DivIs(a: nat, b: nat, q: nat)
    requires b >= 1 && q * b <= a < (q + 1) * b
    ensures a / b == q
  {
    var d, m := a / b, a % b;
    assert a == d * b + m && 0 <= m < b;
    if d < q {
      MulLe(d + 1, q, b);
    } else if d > q {
      MulLe(q + 1, d, b);
    }
  }

  lemma MulLe(a: int, b: int, c: nat)
    requires a <= b
    ensures a * c <= b * c
  {
  }

  /** The ceiling of i / step goes up by one exactly at multiples of step. */
  lemma CeilStep(i: nat, step: nat)
    requires step >= 1
    ensures Seqs.CeilDiv(i + 1, step) == Seqs.CeilDiv(i, step) + (if i % step == 0 then 1 else 0)
  {
    var q, m := i / step, i % step;
    assert i == q * step + m;
    if m == 0 {
      DivIs(i + step - 1, step, q);
      DivIs(i + 1 + step - 1, step, q + 1);
    } else {
      DivIs(i + step - 1, step, q + 1);
      DivIs(i + 1 + step - 1, step, q + 1);
    }
  }

  /** There are `ceil(n / step) - ceil(i / step)` multiples in [i, n). */
  lemma {:induction false} MultiplesCount(i: nat, n: nat, step: nat)
    requires step >= 1 && i <= n
    ensures Multiples(i, n, step) == Seqs.CeilDiv(n, step) - Seqs.CeilDiv(i, step)
    decreases n - i
  {
    if i < n {
      MultiplesCount(i + 1, n, step);
      CeilStep(i, step);
    }
  }

  /** `n` items in groups of `step`, when `n <= 60 * step`, make at most 60
      groups. */
  lemma CeilWithinBars(n: nat, step: nat)
    requires step >= 1 && n <= step * MaxBars
    ensures Seqs.CeilDiv(n, step) <= MaxBars
  {
    var c := Seqs.CeilDiv(n, step);
    if c > MaxBars {
      MulLe(MaxBars, c - 1, step);
    }
  }

  /** The chart never draws more than 61 bars: at most sixty multiples of
      the step, plus the last point. */
  lemma SampledHistoryBound(h: seq<PlayerDataPoint>)
    ensures |SampledHistory(h)| <= MaxBars + 1
  {
    var n, step := |h|, Step(|h|);
    SampleFromLength(h, 0, step);
    MultiplesFromZero(n, step);
    CeilWithinBars(n, step);
  }
}

=== FILE: sentiment.dfy ===
/** Review labelling and batch statistics (lib/sentiment-analysis.ts).
    The scorer itself, the external `sentiment` package, is not modelled:
    every operation takes it as a parameter `analyze`, so everything proved
    here holds whatever scores the package returns. */
module SentimentAnalysis {

  import Seqs
  import Sorting

  datatype Label = Positive | Neutral | Negative

  /** What the scorer returns for one text (lib/types.ts:94-100). */
  datatype SentimentScore = SentimentScore(
    score: real,
    comparative: real,
    tokens: seq<string>,
    positive: seq<string>,
    negative: seq<string>)

  /** The fields of a Steam review that the analysis reads or carries. */
  datatype SteamReview = SteamReview(
    recommendationId: string,
    review: string,
    timestampCreated: int,
    votedUp: bool)

  /** A review with its score and label attached (lib/types.ts:102-105). */
  datatype ReviewWithSentiment = ReviewWithSentiment(
    source: SteamReview,
    sentiment: SentimentScore,
    sentimentLabel: Label)

  type Analyzer = string -> SentimentScore

  datatype Overall = Overall(
    averageScore: real,
    positiveCount: nat,
    neutralCount: nat,
    negativeCount: nat,
    totalReviews: nat)

  /** One day of the timeline; `date` is the UTC day number. */
  datatype TimelineEntry = TimelineEntry(date: int, averageScore: real, count: nat)

  datatype SentimentStats = SentimentStats(overall: Overall, timeline: seq<TimelineEntry>)

  const SecondsPerDay: int := 86400

  // ---------------------------------------------------------------- labels

  /** Scores above 1 are positive, below -1 negative, the rest neutral. */
  function GetSentimentLabel(score: real): (l: Label)
    ensures l == Positive <==> score > 1.0
    ensures l == Negative <==> score < -1.0
    ensures l == Neutral <==> -1.0 <= score <= 1.0
  {
    if score > 1.0 then Positive
    else if score < -1.0 then Negative
    else Neutral
  }

  /** The label a review carries is the one its own score determines. */
  predicate WellLabelled(r: ReviewWithSentiment) {
    r.sentimentLabel == GetSentimentLabel(r.sentiment.score)
  }

  /** Scores the review text and attaches score and label; the review
      itself is carried over field for field. */
  function AnalyzeReview(analyze: Analyzer, review: SteamReview): (r: ReviewWithSentiment)
    ensures r.source == review
    ensures r.sentiment == analyze(review.review)
    ensures WellLabelled(r)
  {
    var s := analyze(review.review);
    ReviewWithSentiment(review, s, GetSentimentLabel(s.score))
  }

  /** `reviews.map(analyzeReview)`. */
  function AnalyzeReviews(analyze: Analyzer, reviews: seq<SteamReview>): (out: seq<ReviewWithSentiment>)
    ensures |out| == |reviews|
    ensures forall i :: 0 <= i < |reviews| ==> out[i] == AnalyzeReview(analyze, reviews[i])
    decreases |reviews|
  {
    if |reviews| == 0 then []
    else [AnalyzeReview(analyze, reviews[0])] + AnalyzeReviews(analyze, reviews[1..])
  }

  /** Every analysed review carries the label of its own score, and its
      source review is the input at the same position. */
  lemma AnalyzedReviewsWellLabelled(analyze: Analyzer, reviews: seq<SteamReview>)
    ensures forall i :: 0 <= i < |reviews| ==>
      WellLabelled(AnalyzeReviews(analyze, reviews)[i])
      && AnalyzeReviews(analyze, reviews)[i].source == reviews[i]
  {
  }

  // ------------------------------------------------------- overall counts

  function CountLabel(rs: seq<ReviewWithSentiment>, l: Label): nat {
    |Seqs.Filter(rs, (r: ReviewWithSentiment) => r.sentimentLabel == l)|
  }

  /** `reduce((sum, r) => sum + r.sentiment.score, 0)`, left to right. */
  function SumScores(rs: seq<ReviewWithSentiment>): real
    decreases |rs|
  {
    if |rs| == 0 then 0.0 else SumScores(rs[..|rs| - 1]) + rs[|rs| - 1].sentiment.score
  }

  /** The average score of a batch, 0 for an empty batch. */
  function MeanScore(rs: seq<ReviewWithSentiment>): (m: real)
    ensures |rs| == 0 ==> m == 0.0
    ensures |rs| > 0 ==> m * |rs| as real == SumScores(rs)
  {
    if |rs| > 0 then SumScores(rs) / |rs| as real else 0.0
  }

  /** Each review has exactly one of the three labels, so the three counts
      add up to the batch size. */
  lemma {:induction false} LabelCountsPartition(rs: seq<ReviewWithSentiment>)
    ensures CountLabel(rs, Positive) + CountLabel(rs, Neutral) + CountLabel(rs, Negative) == |rs|
    decreases |rs|
  {
    if |rs| > 0 {
      LabelCountsPartition(rs[1..]);
    }
  }

  // -------------------------------------------------------------- timeline

  /** The UTC calendar day of a review: `toISOString().split('T')[0]`
      as a day number (Dafny's `/` rounds down for a positive divisor). */
  function Day(r: ReviewWithSentiment): int {
    r.source.timestampCreated / SecondsPerDay
  }

  /** The reviews of one day, in batch order. */
  function DayReviews(rs: seq<ReviewWithSentiment>, d: int): seq<ReviewWithSentiment> {
    Seqs.Filter(rs, (r: ReviewWithSentiment) => Day(r) == d)
  }

  /** One entry of the `Map<date, reviews>` built by the `forEach`. */
  datatype Bucket = Bucket(day: int, members: seq<ReviewWithSentiment>)

  /** `reviewsByDate.has(date)` as a lookup: the position of the first
      bucket for day `d`, or `|bs|` when there is none. */
  function FindDay(bs: seq<Bucket>, d: int): (i: nat)
    ensures i <= |bs|
    ensures i < |bs| ==> bs[i].day == d
    ensures forall j :: 0 <= j < i ==> bs[j].day != d
    decreases |bs|
  {
    if |bs| == 0 then 0
    else if bs[0].day == d then 0
    else 1 + FindDay(bs[1..], d)
  }

  /** `reviewsByDate.get(date).push(review)`, creating the entry at the end
      of the map's insertion order when the date is new. */
  function AddToBucket(bs: seq<Bucket>, r: ReviewWithSentiment): seq<Bucket> {
    var i := FindDay(bs, Day(r));
    if i == |bs| then bs + [Bucket(Day(r), [r])]
    else bs[i := Bucket(Day(r), bs[i].members + [r])]
  }

  /** The grouping `forEach` over the whole batch. */
  function Group(rs: seq<ReviewWithSentiment>): seq<Bucket>
    decreases |rs|
  {
    if |rs| == 0 then [] else AddToBucket(Group(rs[..|rs| - 1]), rs[|rs| - 1])
  }

  predicate DistinctDays(bs: seq<Bucket>) {
    forall i, j :: 0 <= i < j < |bs| ==> bs[i].day != bs[j].day
  }

  /** What the grouping maintains after a prefix `rs` of the batch. */
  ghost predicate GroupedBy(bs: seq<Bucket>, rs: seq<ReviewWithSentiment>) {
    DistinctDays(bs) && HoldsDays(bs, rs) && NonEmpty(bs) && Covers(bs, rs)
  }

  /** Each bucket holds exactly the reviews of its day, in batch order. */
  ghost predicate HoldsDays(bs: seq<Bucket>, rs: seq<ReviewWithSentiment>) {
    forall i :: 0 <= i < |bs| ==> bs[i].members == DayReviews(rs, bs[i].day)
  }

  predicate NonEmpty(bs: seq<Bucket>) {
    forall i :: 0 <= i < |bs| ==> |bs[i].members| >= 1
  }

  /** Some bucket is for day `d`. */
  ghost predicate HasDay(bs: seq<Bucket>, d: int) {
    exists i :: 0 <= i < |bs| && bs[i].day == d
  }

  /** Every review's day has a bucket. */
  ghost predicate Covers(bs: seq<Bucket>, rs: seq<ReviewWithSentiment>) {
    forall k :: 0 <= k < |rs| ==> HasDay(bs, Day(rs[k]))
  }

  function SumMembers(bs: seq<Bucket>): nat
    decreases |bs|
  {
    if |bs| == 0 then 0 else |bs[0].members| + SumMembers(bs[1..])
  }

  lemma {:induction false} SumMembersSnoc(bs: seq<Bucket>, b: Bucket)
    ensures SumMembers(bs + [b]) == SumMembers(bs) + |b.members|
    decreases |bs|
  {
    if |bs| > 0 {
      assert (bs + [b])[1..] == bs[1..] + [b];
      SumMembersSnoc(bs[1..], b);
    } else {
      assert [b][1..] == [];
    }
  }

  lemma {:induction false} SumMembersUpdate(bs: seq<Bucket>, i: nat, b: Bucket)
    requires i < |bs|
    ensures SumMembers(bs[i := b]) == SumMembers(bs) - |bs[i].members| + |b.members|
    decreases |bs|
  {
    if i > 0 {
      assert bs[i := b][1..] == bs[1..][i - 1 := b];
      SumMembersUpdate(bs[1..], i - 1, b);
    } else {
      assert bs[i := b][1..] == bs[1..];
    }
  }

  lemma AddToBucketSum(bs: seq<Bucket>, r: ReviewWithSentiment)
    ensures SumMembers(AddToBucket(bs, r)) == SumMembers(bs) + 1
  {
    var i := FindDay(bs, Day(r));
    if i == |bs| {
      SumMembersSnoc(bs, Bucket(Day(r), [r]));
    } else {
      SumMembersUpdate(bs, i, Bucket(Day(r), bs[i].members + [r]));
    }
  }

  /** Day filtering distributes over appending one review. */
  lemma DayReviewsSnoc(rs: seq<ReviewWithSentiment>, r: ReviewWithSentiment, d: int)
    ensures DayReviews(rs + [r], d) == DayReviews(rs, d) + (if Day(r) == d then [r] else [])
  {
    Seqs.FilterAppend(rs, [r], (x: ReviewWithSentiment) => Day(x) == d);
  }

  /** Adding one review keeps the grouping invariant. */
  lemma AddToBucketPreserves(bs: seq<Bucket>, rs: seq<ReviewWithSentiment>, r: ReviewWithSentiment)
    requires GroupedBy(bs, rs)
    ensures GroupedBy(AddToBucket(bs, r), rs + [r])
  {
    AddToBucketDistinct(bs, r);
    AddToBucketNonEmpty(bs, r);
    AddToBucketHoldsDays(bs, rs, r);
    AddToBucketCovers(bs, rs, r);
  }

  lemma AddToBucketHoldsDays(bs: seq<Bucket>, rs: seq<ReviewWithSentiment>, r: ReviewWithSentiment)
    requires DistinctDays(bs) && HoldsDays(bs, rs) && Covers(bs, rs)
    ensures HoldsDays(AddToBucket(bs, r), rs + [r])
  {
    var out := AddToBucket(bs, r);
    var i0 := FindDay(bs, Day(r));
    forall i | 0 <= i < |bs|
      ensures out[i].members == DayReviews(rs + [r], out[i].day)
    {
      DayReviewsSnoc(rs, r, bs[i].day);
    }
    if i0 == |bs| {
      NewDayHoldsOnlyItself(bs, rs, r);
    }
  }

  lemma NewDayHoldsOnlyItself(bs: seq<Bucket>, rs: seq<ReviewWithSentiment>, r: ReviewWithSentiment)
    requires Covers(bs, rs)
    requires forall j :: 0 <= j < |bs| ==> bs[j].day != Day(r)
    ensures DayReviews(rs + [r], Day(r)) == [r]
  {
    DayReviewsSnoc(rs, r, Day(r));
    forall k | 0 <= k < |rs|
      ensures Day(rs[k]) != Day(r)
    {
      assert HasDay(bs, Day(rs[k]));
    }
    Seqs.FilterKeepsNone(rs, (x: ReviewWithSentiment) => Day(x) == Day(r));
  }

  lemma AddToBucketCovers(bs: seq<Bucket>, rs: seq<ReviewWithSentiment>, r: ReviewWithSentiment)
    requires Covers(bs, rs)
    ensures Covers(AddToBucket(bs, r), rs + [r])
  {
    var out := AddToBucket(bs, r);
    var i0 := FindDay(bs, Day(r));
    var rs' := rs + [r];
    forall k | 0 <= k < |rs'|
      ensures HasDay(out, Day(rs'[k]))
    {
      if k < |rs| {
        assert rs'[k] == rs[k];
        assert HasDay(bs, Day(rs[k]));
        var i :| 0 <= i < |bs| && bs[i].day == Day(rs[k]);
        assert out[i].day == Day(rs'[k]);
      } else {
        assert out[i0].day == Day(rs'[k]);
      }
    }
  }

  lemma AddToBucketDistinct(bs: seq<Bucket>, r: ReviewWithSentiment)
    requires DistinctDays(bs)
    ensures DistinctDays(AddToBucket(bs, r))
  {
  }

  lemma AddToBucketNonEmpty(bs: seq<Bucket>, r: ReviewWithSentiment)
    requires NonEmpty(bs)
    ensures NonEmpty(AddToBucket(bs, r))
  {
  }

  /** Grouping places every review in the bucket of its day: buckets have
      distinct days, hold exactly that day's reviews in batch order, are
      never empty, and their sizes add up to the batch size. */
  lemma {:induction false} GroupInvariant(rs: seq<ReviewWithSentiment>)
    ensures GroupedBy(Group(rs), rs)
    ensures SumMembers(Group(rs)) == |rs|
    decreases |rs|
  {
    if |rs| > 0 {
      var init := rs[..|rs| - 1];
      var r := rs[|rs| - 1];
      assert rs == init + [r];
      GroupInvariant(init);
      AddToBucketPreserves(Group(init), init, r);
      AddToBucketSum(Group(init), r);
    }
  }

  function ToEntry(b: Bucket): TimelineEntry {
    TimelineEntry(b.day, MeanScore(b.members), |b.members|)
  }

  function ToEntries(bs: seq<Bucket>): (es: seq<TimelineEntry>)
    ensures |es| == |bs|
    ensures forall i :: 0 <= i < |bs| ==> es[i] == ToEntry(bs[i])
    decreases |bs|
  {
    if |bs| == 0 then [] else [ToEntry(bs[0])] + ToEntries(bs[1..])
  }

  /** `a.date.localeCompare(b.date) <= 0` on "YYYY-MM-DD" keys. */
  function DateLe(a: TimelineEntry, b: TimelineEntry): bool {
    a.date <= b.date
  }

  lemma DateLeIsTotalPreorder()
    ensures Sorting.TotalPreorder(DateLe)
  {
  }

  /** The timeline: one entry per date, sorted by date. */
  function Timeline(rs: seq<ReviewWithSentiment>): seq<TimelineEntry> {
    DateLeIsTotalPreorder();
    Sorting.Sort(ToEntries(Group(rs)), DateLe)
  }

  /** `calculateSentimentStats`. */
  function CalculateSentimentStats(rs: seq<ReviewWithSentiment>): (st: SentimentStats)
    ensures st.overall.totalReviews == |rs|
    ensures st.overall.positiveCount == CountLabel(rs, Positive)
    ensures st.overall.neutralCount == CountLabel(rs, Neutral)
    ensures st.overall.negativeCount == CountLabel(rs, Negative)
    ensures st.overall.positiveCount + st.overall.neutralCount + st.overall.negativeCount == |rs|
    ensures st.overall.averageScore == MeanScore(rs)
    ensures st.timeline == Timeline(rs)
    ensures StrictlyAscending(st.timeline) && SumCounts(st.timeline) == |rs|
  {
    LabelCountsPartition(rs);
    TimelineEntriesAreDays(rs);
    TimelineCountsSum(rs);
    SentimentStats(
      Overall(
        MeanScore(rs),
        CountLabel(rs, Positive),
        CountLabel(rs, Neutral),
        CountLabel(rs, Negative),
        |rs|),
      Timeline(rs))
  }

  predicate StrictlyAscending(es: seq<TimelineEntry>) {
    forall i, j :: 0 <= i < j < |es| ==> es[i].date < es[j].date
  }

  function SumCounts(es: seq<TimelineEntry>): nat
    decreases |es|
  {
    if |es| == 0 then 0 else SumCounts(es[..|es| - 1]) + es[|es| - 1].count
  }

  lemma {:induction false} SumCountsPrepend(e: TimelineEntry, es: seq<TimelineEntry>)
    ensures SumCounts([e] + es) == e.count + SumCounts(es)
    decreases |es|
  {
    if |es| > 0 {
      var init := es[..|es| - 1];
      assert ([e] + es)[..|es|] == [e] + init;
      SumCountsPrepend(e, init);
    }
  }

  lemma {:induction false} SumCountsOfEntries(bs: seq<Bucket>)
    ensures SumCounts(ToEntries(bs)) == SumMembers(bs)
    decreases |bs|
  {
    if |bs| > 0 {
      SumCountsOfEntries(bs[1..]);
      SumCountsPrepend(ToEntry(bs[0]), ToEntries(bs[1..]));
    }
  }

  lemma {:induction false} SumCountsInsert(x: TimelineEntry, es: seq<TimelineEntry>)
    requires Sorting.TotalPreorder(DateLe) && Sorting.SortedBy(es, DateLe)
    ensures SumCounts(Sorting.Insert(x, es, DateLe)) == SumCounts(es) + x.count
    decreases |es|
  {
    if |es| > 0 && !DateLe(es[|es| - 1], x) {
      var init := es[..|es| - 1];
      SumCountsInsert(x, init);
      var r := Sorting.Insert(x, es, DateLe);
      assert r[..|r| - 1] == Sorting.Insert(x, init, DateLe);
    } else if |es| > 0 {
      assert (es + [x])[..|es|] == es;
    }
  }

  lemma {:induction false} SumCountsSort(es: seq<TimelineEntry>)
    requires Sorting.TotalPreorder(DateLe)
    ensures SumCounts(Sorting.Sort(es, DateLe)) == SumCounts(es)
    decreases |es|
  {
    if |es| > 0 {
      var init := es[..|es| - 1];
      SumCountsSort(init);
      SumCountsInsert(es[|es| - 1], Sorting.Sort(init, DateLe));
    }
  }

  lemma EntriesDistinct(bs: seq<Bucket>)
    requires DistinctDays(bs)
    ensures Sorting.Distinct(ToEntries(bs))
    ensures forall a, b :: a in ToEntries(bs) && b in ToEntries(bs) && a.date == b.date ==> a == b
  {
  }

  /** The timeline lists each day once, in ascending date order, and each
      entry is exactly the count and the mean score of that day's reviews. */
  lemma TimelineEntriesAreDays(rs: seq<ReviewWithSentiment>)
    ensures StrictlyAscending(Timeline(rs))
    ensures forall e :: e in Timeline(rs) ==>
      && e.count == |DayReviews(rs, e.date)|
      && e.count >= 1
      && e.averageScore == MeanScore(DayReviews(rs, e.date))
  {
    DateLeIsTotalPreorder();
    GroupInvariant(rs);
    var bs := Group(rs);
    var es := ToEntries(bs);
    var t := Timeline(rs);
    EntriesDistinct(bs);
    Sorting.SortKeepsDistinct(es, DateLe);
    Sorting.SortSameElements(es, DateLe);
    forall i, j | 0 <= i < j < |t|
      ensures t[i].date < t[j].date
    {
      assert t[i] in es && t[j] in es;
      assert t[i] != t[j];
    }
    forall e | e in t
      ensures e.count == |DayReviews(rs, e.date)| && e.count >= 1
      ensures e.averageScore == MeanScore(DayReviews(rs, e.date))
    {
      assert e in es;
      var i :| 0 <= i < |es| && es[i] == e;
      assert e == ToEntry(bs[i]);
    }
  }

  /** Every review falls in exactly one timeline entry: the one of its day. */
  lemma ReviewInExactlyOneEntry(rs: seq<ReviewWithSentiment>, k: nat)
    requires k < |rs|
    ensures exists i :: 0 <= i < |Timeline(rs)| && Timeline(rs)[i].date == Day(rs[k])
    ensures forall i, j :: 0 <= i < j < |Timeline(rs)| ==>
      Timeline(rs)[i].date != Day(rs[k]) || Timeline(rs)[j].date != Day(rs[k])
  {
    var t := Timeline(rs);
    TimelineEntriesAreDays(rs);
    TimelineCoversReview(rs, k);
    assert forall i, j :: 0 <= i < j < |t| ==> t[i].date < t[j].date;
  }

  lemma TimelineCoversReview(rs: seq<ReviewWithSentiment>, k: nat)
    requires k < |rs|
    ensures exists i :: 0 <= i < |Timeline(rs)| && Timeline(rs)[i].date == Day(rs[k])
  {
    DateLeIsTotalPreorder();
    GroupInvariant(rs);
    var bs := Group(rs);
    var es := ToEntries(bs);
    var t := Timeline(rs);
    Sorting.SortSameElements(es, DateLe);
    assert HasDay(bs, Day(rs[k]));
    var b :| 0 <= b < |bs| && bs[b].day == Day(rs[k]);
    assert es[b] in t;
    var i :| 0 <= i < |t| && t[i] == es[b];
    assert t[i].date == Day(rs[k]);
  }

  /** The day counts add up to the batch size. */
  lemma TimelineCountsSum(rs: seq<ReviewWithSentiment>)
    ensures SumCounts(Timeline(rs)) == |rs|
  {
    DateLeIsTotalPreorder();
    GroupInvariant(rs);
    SumCountsOfEntries(Group(rs));
    SumCountsSort(ToEntries(Group(rs)));
  }

  /** A non-empty batch from a single UTC day yields one timeline entry
      whose count and average equal the overall ones. */
  lemma SingleDayTimeline(rs: seq<ReviewWithSentiment>, d: int)
    requires |rs| > 0
    requires forall k :: 0 <= k < |rs| ==> Day(rs[k]) == d
    ensures Timeline(rs) == [TimelineEntry(d, MeanScore(rs), |rs|)]
    ensures CalculateSentimentStats(rs).timeline[0].count == CalculateSentimentStats(rs).overall.totalReviews
    ensures CalculateSentimentStats(rs).timeline[0].averageScore == CalculateSentimentStats(rs).overall.averageScore
  {
    var t := Timeline(rs);
    TimelineEntriesAreDays(rs);
    ReviewInExactlyOneEntry(rs, 0);
    var i :| 0 <= i < |t| && t[i].date == d;
    Seqs.FilterKeepsAll(rs, (r: ReviewWithSentiment) => Day(r) == d);
    assert DayReviews(rs, d) == rs;
    forall j | 0 <= j < |t|
      ensures t[j].date == d
    {
      var dr := DayReviews(rs, t[j].date);
      assert t[j] in t;
      assert |dr| >= 1;
      assert dr[0] in rs;
    }
    assert t[0].date == d && t[|t| - 1].date == d;
    assert |t| == 1;
  }

  // ------------------------------------------------------ display helpers

  function SentimentColor(l: Label): string {
    match l
    case Positive => "text-green-500"
    case Negative => "text-red-500"
    case Neutral => "text-yellow-500"
  }

  function SentimentBgColor(l: Label): string {
    match l
    case Positive => "bg-green-500/20"
    case Negative => "bg-red-500/20"
    case Neutral => "bg-yellow-500/20"
  }

  function SentimentEmoji(l: Label): string {
    match l
    case Positive => "\U{1F60A}"
    case Negative => "\U{1F61E}"
    case Neutral => "\U{1F610}"
  }

  /** The three labels are shown with three different colours, backgrounds
      and emoji, so the display never conflates two labels. */
  lemma DisplayDistinguishesLabels(a: Label, b: Label)
    ensures SentimentColor(a) == SentimentColor(b) ==> a == b
    ensures SentimentBgColor(a) == SentimentBgColor(b) ==> a == b
    ensures SentimentEmoji(a) == SentimentEmoji(b) ==> a == b
  {
  }
}

=== FILE: seqs.dfy ===
/** Sequence helpers with the meaning of JavaScript's `Array.prototype`
    methods: `filter`, counting, and the integer arithmetic behind
    `Math.ceil(a / b)` and `Math.round(a / b)`. */
module Seqs {

  /** `a` is obtained from `b` by deleting elements: order is kept and
      nothing is added. */
  predicate IsSubsequence<T(==)>(a: seq<T>, b: seq<T>)
    decreases |b|
  {
    |a| == 0 || (|b| > 0 && ((a[0] == b[0] && IsSubsequence(a[1..], b[1..])) || IsSubsequence(a, b[1..])))
  }

  /** Every sequence is a subsequence of itself. */
  lemma {:induction false} SubsequenceReflexive<T>(s: seq<T>)
    ensures IsSubsequence(s, s)
    decreases |s|
  {
    if |s| > 0 {
      SubsequenceReflexive(s[1..]);
    }
  }

  /** Every element of a subsequence comes from the sequence. */
  lemma {:induction false} SubsequenceMember<T>(a: seq<T>, b: seq<T>, i: nat)
    requires IsSubsequence(a, b) && i < |a|
    ensures a[i] in b
    decreases |b|
  {
    if a[0] == b[0] && IsSubsequence(a[1..], b[1..]) {
      if i > 0 {
        SubsequenceMember(a[1..], b[1..], i - 1);
      }
    } else {
      SubsequenceMember(a, b[1..], i);
    }
  }

  /** A subsequence of a suffix is a subsequence of the whole. */
  lemma {:induction false} SubsequenceOfSuffix<T>(a: seq<T>, b: seq<T>, j: nat)
    requires j <= |b| && IsSubsequence(a, b[j..])
    ensures IsSubsequence(a, b)
    decreases j
  {
    if j == 0 {
      assert b[j..] == b;
    } else {
      assert b[1..][j - 1..] == b[j..];
      SubsequenceOfSuffix(a, b[1..], j - 1);
    }
  }

  /** A prefix of a subsequence is still a subsequence. */
  lemma {:induction false} PrefixOfSubsequence<T>(a: seq<T>, n: nat, b: seq<T>)
    requires n <= |a| && IsSubsequence(a, b)
    ensures IsSubsequence(a[..n], b)
    decreases |b|
  {
    if n > 0 {
      if a[0] == b[0] && IsSubsequence(a[1..], b[1..]) {
        PrefixOfSubsequence(a[1..], n - 1, b[1..]);
        assert a[..n][1..] == a[1..][..n - 1];
      } else {
        PrefixOfSubsequence(a, n, b[1..]);
      }
    }
  }

  /** A subsequence of a subsequence is a subsequence. */
  lemma {:induction false} SubsequenceTransitive<T>(a: seq<T>, b: seq<T>, c: seq<T>)
    requires IsSubsequence(a, b) && IsSubsequence(b, c)
    ensures IsSubsequence(a, c)
    decreases |c|
  {
    if |a| > 0 {
      if b[0] == c[0] && IsSubsequence(b[1..], c[1..]) {
        if a[0] == b[0] && IsSubsequence(a[1..], b[1..]) {
          SubsequenceTransitive(a[1..], b[1..], c[1..]);
        } else {
          SubsequenceTransitive(a, b[1..], c[1..]);
        }
      } else {
        SubsequenceTransitive(a, b, c[1..]);
      }
    }
  }

  /** `filter`: the elements satisfying `p`, in their original order. */
  function Filter<T>(s: seq<T>, p: T -> bool): (r: seq<T>)
    ensures |r| <= |s|
    ensures forall i :: 0 <= i < |r| ==> r[i] in s && p(r[i])
    ensures forall i :: 0 <= i < |s| && p(s[i]) ==> s[i] in r
    ensures IsSubsequence(r, s)
    decreases |s|
  {
    if |s| == 0 then []
    else if p(s[0]) then [s[0]] + Filter(s[1..], p)
    else Filter(s[1..], p)
  }

  lemma {:induction false} FilterAppend<T>(a: seq<T>, b: seq<T>, p: T -> bool)
    ensures Filter(a + b, p) == Filter(a, p) + Filter(b, p)
    decreases |a|
  {
    if |a| > 0 {
      assert (a + b)[1..] == a[1..] + b;
      FilterAppend(a[1..], b, p);
    } else {
      assert a + b == b;
    }
  }

  /** A filter keeps every copy of an element it accepts and no copy of
      one it rejects. */
  lemma {:induction false} FilterMultiset<T>(s: seq<T>, p: T -> bool, x: T)
    ensures multiset(Filter(s, p))[x] == if p(x) then multiset(s)[x] else 0
    decreases |s|
  {
    if |s| > 0 {
      assert s == [s[0]] + s[1..];
      FilterMultiset(s[1..], p, x);
    }
  }

  /** `FilterMultiset` for every element at once. */
  lemma FilterMultisetAll<T>(s: seq<T>, p: T -> bool)
    ensures forall x :: multiset(Filter(s, p))[x] == if p(x) then multiset(s)[x] else 0
  {
    forall x
      ensures multiset(Filter(s, p))[x] == if p(x) then multiset(s)[x] else 0
    {
      FilterMultiset(s, p, x);
    }
  }

  /** A filter whose predicate holds everywhere keeps the whole sequence. */
  lemma {:induction false} FilterKeepsAll<T>(s: seq<T>, p: T -> bool)
    requires forall i :: 0 <= i < |s| ==> p(s[i])
    ensures Filter(s, p) == s
    decreases |s|
  {
    if |s| > 0 {
      FilterKeepsAll(s[1..], p);
    }
  }

  /** A filter whose predicate holds nowhere keeps nothing. */
  lemma {:induction false} FilterKeepsNone<T>(s: seq<T>, p: T -> bool)
    requires forall i :: 0 <= i < |s| ==> !p(s[i])
    ensures Filter(s, p) == []
    decreases |s|
  {
    if |s| > 0 {
      FilterKeepsNone(s[1..], p);
    }
  }

  /** `Math.ceil(a / b)` for a non-negative `a` and a positive `b`. */
  function CeilDiv(a: nat, b: nat): (r: nat)
    requires b > 0
    ensures a <= r * b
    ensures (r - 1) * b < a
  {
    (a + b - 1) / b
  }

  /** `Math.round(num / den)` on exact rationals: the integer nearest to
      `num / den`, halves rounding up. */
  function RoundDiv(num: int, den: int): (r: int)
    requires den > 0
    ensures 2 * r * den - den <= 2 * num < 2 * r * den + den
  {
    (2 * num + den) / (2 * den)
  }

  /** `Math.round(100 * part / whole)` lies in [0, 100] when
      0 <= part <= whole. */
  lemma PercentBounds(part: int, whole: int)
    requires 0 <= part <= whole && whole > 0
    ensures 0 <= RoundDiv(100 * part, whole) <= 100
  {
    var r := RoundDiv(100 * part, whole);
    assert (2 * r + 1) * whole > 0;
    assert (2 * r - 1 - 200) * whole <= 0;
  }
}

=== FILE: sorting.dfy ===
/** A stable sort for `Array.prototype.sort` with a consistent comparator.
    The comparator is given as `le(a, b)`: "a may come before b", which is
    what `cmp(a, b) <= 0` means in JavaScript. Elements that compare equal
    keep their input order, as ECMAScript 2019 requires of `sort`. */
module Sorting {

  /** `le` is total and transitive, i.e. a consistent comparator. */
  ghost predicate TotalPreorder<T(!new)>(le: (T, T) -> bool) {
    && (forall a, b :: le(a, b) || le(b, a))
    && (forall a, b, c {:trigger le(a, b), le(b, c)} :: le(a, b) && le(b, c) ==> le(a, c))
  }

  predicate SortedBy<T>(s: seq<T>, le: (T, T) -> bool) {
    forall i, j :: 0 <= i < j < |s| ==> le(s[i], s[j])
  }

  /** No value occurs twice. */
  predicate Distinct<T(==)>(s: seq<T>) {
    forall i, j :: 0 <= i < j < |s| ==> s[i] != s[j]
  }

  /** Two duplicate-free sequences with no value in common join into a
      duplicate-free sequence. */
  lemma DistinctConcat<T>(a: seq<T>, b: seq<T>)
    requires Distinct(a) && Distinct(b)
    requires forall i, j :: 0 <= i < |a| && 0 <= j < |b| ==> a[i] != b[j]
    ensures Distinct(a + b)
  {
    forall i, j | 0 <= i < j < |a + b|
      ensures (a + b)[i] != (a + b)[j]
    {
      if j < |a| {
      } else if i < |a| {
        assert (a + b)[i] == a[i] && (a + b)[j] == b[j - |a|];
      } else {
        assert (a + b)[i] == b[i - |a|] && (a + b)[j] == b[j - |a|];
      }
    }
  }

  /** Places `x` after the last element of `s` that may come before it. */
  function Insert<T(!new)>(x: T, s: seq<T>, le: (T, T) -> bool): (r: seq<T>)
    requires TotalPreorder(le) && SortedBy(s, le)
    ensures multiset(r) == multiset(s) + multiset{x}
    ensures |r| == |s| + 1
    ensures SortedBy(r, le)
    decreases |s|
  {
    if |s| == 0 then [x]
    else if le(s[|s| - 1], x) then s + [x]
    else
      var last := s[|s| - 1];
      assert s == s[..|s| - 1] + [last];
      var r := Insert(x, s[..|s| - 1], le) + [last];
      assert forall i :: 0 <= i < |r| - 1 ==> le(r[i], last) by {
        forall i | 0 <= i < |r| - 1
          ensures le(r[i], last)
        {
          assert r[i] in multiset(s[..|s| - 1]) + multiset{x};
        }
      }
      r
  }

  /** Insertion sort, taking the elements from left to right. */
  function Sort<T(!new)>(s: seq<T>, le: (T, T) -> bool): (r: seq<T>)
    requires TotalPreorder(le)
    ensures multiset(r) == multiset(s)
    ensures |r| == |s|
    ensures SortedBy(r, le)
    decreases |s|
  {
    if |s| == 0 then []
    else
      assert s == s[..|s| - 1] + [s[|s| - 1]];
      Insert(s[|s| - 1], Sort(s[..|s| - 1], le), le)
  }

  /** Sorting neither adds nor loses an element. */
  lemma SortSameElements<T(!new)>(s: seq<T>, le: (T, T) -> bool)
    requires TotalPreorder(le)
    ensures forall x :: x in Sort(s, le) <==> x in s
  {
    var r := Sort(s, le);
    forall x
      ensures x in r <==> x in s
    {
      assert x in r <==> x in multiset(r);
      assert x in s <==> x in multiset(s);
    }
  }

  lemma {:induction false} InsertKeepsDistinct<T(!new)>(x: T, s: seq<T>, le: (T, T) -> bool)
    requires TotalPreorder(le) && SortedBy(s, le)
    requires Distinct(s) && x !in s
    ensures Distinct(Insert(x, s, le))
    decreases |s|
  {
    if |s| > 0 && !le(s[|s| - 1], x) {
      var init := s[..|s| - 1];
      var last := s[|s| - 1];
      InsertKeepsDistinct(x, init, le);
      var ins := Insert(x, init, le);
      assert last !in ins by {
        assert last !in multiset(init) + multiset{x};
      }
    }
  }

  /** A sequence without repetitions sorts to one without repetitions. */
  lemma {:induction false} SortKeepsDistinct<T(!new)>(s: seq<T>, le: (T, T) -> bool)
    requires TotalPreorder(le) && Distinct(s)
    ensures Distinct(Sort(s, le))
    decreases |s|
  {
    if |s| > 0 {
      var init := s[..|s| - 1];
      SortKeepsDistinct(init, le);
      SortSameElements(init, le);
      InsertKeepsDistinct(s[|s| - 1], Sort(init, le), le);
    }
  }

  /** An already sorted sequence is returned unchanged. */
  lemma {:induction false} SortOfSorted<T(!new)>(s: seq<T>, le: (T, T) -> bool)
    requires TotalPreorder(le) && SortedBy(s, le)
    ensures Sort(s, le) == s
    decreases |s|
  {
    if |s| > 0 {
      SortedPrefix(s, le);
      SortOfSorted(s[..|s| - 1], le);
      assert s == s[..|s| - 1] + [s[|s| - 1]];
    }
  }

  /** The elements of `s` that compare equal to `x` (each may come before
      the other), in their order in `s`. */
  function Ties<T>(s: seq<T>, x: T, le: (T, T) -> bool): seq<T>
    decreases |s|
  {
    if |s| == 0 then []
    else
      var last := s[|s| - 1];
      Ties(s[..|s| - 1], x, le) + (if le(last, x) && le(x, last) then [last] else [])
  }

  /** Inserting `y` puts it after every element that ties with it. */
  lemma {:induction false} InsertTies<T(!new)>(y: T, s: seq<T>, x: T, le: (T, T) -> bool)
    requires TotalPreorder(le) && SortedBy(s, le)
    ensures Ties(Insert(y, s, le), x, le) == Ties(s, x, le) + (if le(y, x) && le(x, y) then [y] else [])
    decreases |s|
  {
    if |s| == 0 || le(s[|s| - 1], y) {
      InsertTiesAtEnd(y, s, x, le);
    } else {
      SortedPrefix(s, le);
      InsertTies(y, s[..|s| - 1], x, le);
      InsertTiesStep(y, s, x, le);
    }
  }

  /** The case of `InsertTies` where `y` goes last. */
  lemma InsertTiesAtEnd<T(!new)>(y: T, s: seq<T>, x: T, le: (T, T) -> bool)
    requires TotalPreorder(le) && SortedBy(s, le)
    requires |s| == 0 || le(s[|s| - 1], y)
    ensures Ties(Insert(y, s, le), x, le) == Ties(s, x, le) + (if le(y, x) && le(x, y) then [y] else [])
  {
    InsertAtEnd(y, s, le);
    TiesAppend(s, y, x, le);
  }

  lemma InsertAtEnd<T(!new)>(y: T, s: seq<T>, le: (T, T) -> bool)
    requires TotalPreorder(le) && SortedBy(s, le)
    requires |s| == 0 || le(s[|s| - 1], y)
    ensures Insert(y, s, le) == s + [y]
  {
  }

  /** Appending an element extends the ties by it, when it ties. */
  lemma TiesAppend<T>(s: seq<T>, y: T, x: T, le: (T, T) -> bool)
    ensures Ties(s + [y], x, le) == Ties(s, x, le) + (if le(y, x) && le(x, y) then [y] else [])
  {
    assert (s + [y])[..|s|] == s;
  }

  /** The case of `InsertTies` where `y` goes before the last element,
      given the property for the elements before it. */
  lemma InsertTiesStep<T(!new)>(y: T, s: seq<T>, x: T, le: (T, T) -> bool)
    requires TotalPreorder(le) && SortedBy(s, le) && |s| > 0 && !le(s[|s| - 1], y)
    requires SortedBy(s[..|s| - 1], le)
    requires Ties(Insert(y, s[..|s| - 1], le), x, le)
             == Ties(s[..|s| - 1], x, le) + (if le(y, x) && le(x, y) then [y] else [])
    ensures Ties(Insert(y, s, le), x, le) == Ties(s, x, le) + (if le(y, x) && le(x, y) then [y] else [])
  {
    var init, last := s[..|s| - 1], s[|s| - 1];
    SplitLast(s);
    InsertBeforeLast(y, s, le);
    TiesNotBoth(le, last, x, y);
    TiesAfterLast(Insert(y, init, le), init, last, y, x, le);
  }

  /** When `y` may not come after the last element, it is inserted into
      the rest and the last element stays last. */
  lemma InsertBeforeLast<T(!new)>(y: T, s: seq<T>, le: (T, T) -> bool)
    requires TotalPreorder(le) && SortedBy(s, le) && |s| > 0
    requires SortedBy(s[..|s| - 1], le) && !le(s[|s| - 1], y)
    ensures Insert(y, s, le) == Insert(y, s[..|s| - 1], le) + [s[|s| - 1]]
  {
  }

  lemma SplitLast<T>(s: seq<T>)
    requires |s| > 0
    ensures s == s[..|s| - 1] + [s[|s| - 1]]
  {
  }

  lemma SortedPrefix<T>(s: seq<T>, le: (T, T) -> bool)
    requires |s| > 0 && SortedBy(s, le)
    ensures SortedBy(s[..|s| - 1], le)
  {
  }

  /** If `last` may not come before `y`, then `last` and `y` do not both
      tie with `x`. */
  lemma TiesNotBoth<T(!new)>(le: (T, T) -> bool, last: T, x: T, y: T)
    requires TotalPreorder(le) && !le(last, y)
    ensures !(le(last, x) && le(x, last) && le(y, x) && le(x, y))
  {
  }

  /** The bookkeeping step of `InsertTies` when `y` goes before `last`: at
      most one of the two ties with `x`, so their order does not matter. */
  lemma TiesAfterLast<T>(ins: seq<T>, init: seq<T>, last: T, y: T, x: T, le: (T, T) -> bool)
    requires Ties(ins, x, le) == Ties(init, x, le) + (if le(y, x) && le(x, y) then [y] else [])
    requires !(le(last, x) && le(x, last) && le(y, x) && le(x, y))
    ensures Ties(ins + [last], x, le) == Ties(init + [last], x, le) + (if le(y, x) && le(x, y) then [y] else [])
  {
    var ys := if le(y, x) && le(x, y) then [y] else [];
    var ls := if le(last, x) && le(x, last) then [last] else [];
    TiesAppend(ins, last, x, le);
    TiesAppend(init, last, x, le);
    assert ys + ls == ls + ys;
    calc {
      Ties(ins + [last], x, le);
      Ties(ins, x, le) + ls;
      Ties(init, x, le) + ys + ls;
      Ties(init, x, le) + ls + ys;
      Ties(init + [last], x, le) + ys;
    }
  }

  /** `Sort` is stable: the elements that tie with any `x` come out in the
      order they went in. */
  lemma {:induction false} SortIsStable<T(!new)>(s: seq<T>, x: T, le: (T, T) -> bool)
    requires TotalPreorder(le)
    ensures Ties(Sort(s, le), x, le) == Ties(s, x, le)
    decreases |s|
  {
    if |s| > 0 {
      var init := s[..|s| - 1];
      SortIsStable(init, x, le);
      InsertTies(s[|s| - 1], Sort(init, le), x, le);
    }
  }
}

=== FILE: steam_api.dfy ===
/** The pure parts of lib/steam-api.ts: the name search over the app list,
    the curated list of popular games, and the parameters of a reviews
    request. The HTTP calls themselves are not modelled; the app list is a
    parameter. */
module SteamApi {

  import opened Wrappers
  import Strings
  import Seqs
  import Sorting
  import Pagination

  datatype SteamGame = SteamGame(appid: nat, name: string)

  const MaxSearchResults: nat := 20

  /** The app's lowercased name contains the (already lowercased) term. */
  predicate NameMatches(app: SteamGame, term: string) {
    Strings.Includes(Strings.Lower(app.name), term)
  }

  function MatchesTerm(term: string): SteamGame -> bool {
    app => NameMatches(app, term)
  }

  /** `searchGames`: `filter` on the lowercased name, then `slice(0, 20)`:
      the first twenty matches, in list order. */
  function SearchGames(allApps: seq<SteamGame>, query: string): (r: seq<SteamGame>)
    ensures |r| <= MaxSearchResults
    ensures forall i :: 0 <= i < |r| ==> NameMatches(r[i], Strings.Lower(query))
    ensures Seqs.IsSubsequence(r, allApps)
    ensures var matches := Seqs.Filter(allApps, MatchesTerm(Strings.Lower(query)));
      r <= matches && |r| == Pagination.Min(MaxSearchResults, |matches|)
  {
    var matches := Seqs.Filter(allApps, MatchesTerm(Strings.Lower(query)));
    var r := Pagination.Slice(matches, 0, MaxSearchResults);
    assert r == matches[..Pagination.Min(MaxSearchResults, |matches|)];
    Seqs.PrefixOfSubsequence(matches, |r|, allApps);
    r
  }

  /** An empty query matches every app: the result is the first twenty
      apps of the list. */
  lemma EmptyQueryMatchesAll(allApps: seq<SteamGame>)
    ensures SearchGames(allApps, "") == allApps[..Pagination.Min(MaxSearchResults, |allApps|)]
  {
    assert Strings.Lower("") == "";
    forall i | 0 <= i < |allApps|
      ensures MatchesTerm("")(allApps[i])
    {
      Strings.IncludesEmpty(Strings.Lower(allApps[i].name));
    }
    Seqs.FilterKeepsAll(allApps, MatchesTerm(""));
  }

  /** With twenty or more matches the search is full; with fewer it
      returns every match. */
  lemma SearchReturnsAllMatchesWhenFew(allApps: seq<SteamGame>, query: string)
    requires |Seqs.Filter(allApps, MatchesTerm(Strings.Lower(query)))| <= MaxSearchResults
    ensures SearchGames(allApps, query) == Seqs.Filter(allApps, MatchesTerm(Strings.Lower(query)))
  {
  }

  /** `getPopularGameIds`: twenty distinct app ids. */
  function PopularGameIds(): (ids: seq<nat>)
    ensures |ids| == 20 && Sorting.Distinct(ids)
  {
    [730, 570, 1172470, 271590, 1091500, 1245620, 2358720, 2519060, 2357570, 292030,
     1086940, 1938090, 578080, 105600, 1426210, 2399830, 1203220, 2050650, 322330, 1997040]
  }

  /** The optional caller settings of `getGameReviews`. */
  datatype ReviewOptions = ReviewOptions(
    cursor: Option<string>,
    numPerPage: Option<int>,
    filter: Option<string>,
    language: Option<string>)

  /** The query parameters sent to the reviews endpoint. */
  datatype ReviewRequest = ReviewRequest(
    json: int,
    cursor: string,
    numPerPage: int,
    filter: string,
    language: string,
    purchaseType: string)

  const DefaultReviewRequest: ReviewRequest := ReviewRequest(1, "*", 20, "recent", "english", "all")

  /** `x || fallback` for a string: an absent or empty value is falsy. */
  function OrString(x: Option<string>, fallback: string): (r: string)
    ensures x.Some? && x.value != "" ==> r == x.value
    ensures x.None? || x.value == "" ==> r == fallback
  {
    if x.Some? && x.value != "" then x.value else fallback
  }

  /** `x || fallback` for a number: an absent value or 0 is falsy. */
  function OrInt(x: Option<int>, fallback: int): (r: int)
    ensures x.Some? && x.value != 0 ==> r == x.value
    ensures x.None? || x.value == 0 ==> r == fallback
  {
    if x.Some? && x.value != 0 then x.value else fallback
  }

  /** `requestParams`: each setting the caller gives (and that is not
      falsy) is used, everything else takes its default; `json` and
      `purchase_type` are fixed. */
  function ReviewRequestParams(params: Option<ReviewOptions>): (r: ReviewRequest)
    ensures r.json == 1 && r.purchaseType == "all"
    ensures r.cursor != "" && r.numPerPage != 0 && r.filter != "" && r.language != ""
    ensures params.None? ==> r == DefaultReviewRequest
    ensures params.Some? && params.value.cursor.Some? && params.value.cursor.value != "" ==>
      r.cursor == params.value.cursor.value
    ensures params.Some? && params.value.numPerPage.Some? && params.value.numPerPage.value != 0 ==>
      r.numPerPage == params.value.numPerPage.value
    ensures params.Some? && params.value.filter.Some? && params.value.filter.value != "" ==>
      r.filter == params.value.filter.value
    ensures params.Some? && params.value.language.Some? && params.value.language.value != "" ==>
      r.language == params.value.language.value
    ensures params.Some? && (params.value.cursor.None? || params.value.cursor.value == "") ==>
      r.cursor == DefaultReviewRequest.cursor
    ensures params.Some? && (params.value.numPerPage.None? || params.value.numPerPage.value == 0) ==>
      r.numPerPage == DefaultReviewRequest.numPerPage
    ensures params.Some? && (params.value.filter.None? || params.value.filter.value == "") ==>
      r.filter == DefaultReviewRequest.filter
    ensures params.Some? && (params.value.language.None? || params.value.language.value == "") ==>
      r.language == DefaultReviewRequest.language
  {
    var o := if params.Some? then params.value else ReviewOptions(None, None, None, None);
    ReviewRequest(
      1,
      OrString(o.cursor, "*"),
      OrInt(o.numPerPage, 20),
      OrString(o.filter, "recent"),
      OrString(o.language, "english"),
      "all")
  }

  /** Falsy settings are no settings: "" and 0 give the defaults, exactly as
      leaving the options out does. */
  lemma FalsyOptionsGiveDefaults(cursor: Option<string>, numPerPage: Option<int>,
                                 filter: Option<string>, language: Option<string>)
    requires cursor.None? || cursor == Some("")
    requires numPerPage.None? || numPerPage == Some(0)
    requires filter.None? || filter == Some("")
    requires language.None? || language == Some("")
    ensures ReviewRequestParams(Some(ReviewOptions(cursor, numPerPage, filter, language)))
            == ReviewRequestParams(None)
            == DefaultReviewRequest
  {
  }
}

=== FILE: steam_community.dfy ===
/** The Steam Community links of lib/steam-community-api.ts. Four pages
    live under `/app/{id}` (the hub and its discussions, workshop and
    guides); achievements live under `/stats/{id}`. The news fetch of the
    same file is network I/O and is not part of this model. */
module SteamCommunity {

  import opened Wrappers
  import Strings

  const CommunityOrigin: string := "https://steamcommunity.com/"
  const AppBase: string := CommunityOrigin + "app/"
  const StatsBase: string := CommunityOrigin + "stats/"

  datatype CommunityPage = Hub | Discussions | Workshop | Guides | Achievements

  /** What a community URL names: a page of an app. */
  datatype CommunityRef = CommunityRef(page: CommunityPage, appid: nat)

  /** The path after the app id under `/app/`. */
  function AppPageOf(tail: string): Option<CommunityPage> {
    if tail == "" then Some(Hub)
    else if tail == "/discussions/" then Some(Discussions)
    else if tail == "/workshop/" then Some(Workshop)
    else if tail == "/guides/" then Some(Guides)
    else None
  }

  /** Reads a community URL back. */
  function ParseCommunityUrl(url: string): Option<CommunityRef> {
    if AppBase <= url then
      var split := Strings.SplitLeadingNat(url[|AppBase|..]);
      if split.None? then None
      else
        var page := AppPageOf(split.value.tail);
        if page.None? then None else Some(CommunityRef(page.value, split.value.n))
    else if StatsBase <= url then
      var split := Strings.SplitLeadingNat(url[|StatsBase|..]);
      if split.None? || split.value.tail != "/achievements/" then None
      else Some(CommunityRef(Achievements, split.value.n))
    else None
  }

  /** `AppBase + id + tail`, read back as the page `tail` names. */
  function AppPageUrl(appId: nat, tail: string): (url: string)
    requires AppPageOf(tail).Some?
    ensures ParseCommunityUrl(url) == Some(CommunityRef(AppPageOf(tail).value, appId))
    ensures AppBase + Strings.NatToString(appId) <= url
  {
    var digits := Strings.NatToString(appId);
    Strings.SplitRendered(appId, tail);
    Strings.ConcatParts(AppBase, digits + tail);
    assert AppBase + digits + tail == AppBase + (digits + tail);
    Strings.ConcatParts(AppBase + digits, tail);
    AppBase + digits + tail
  }

  /** `getCommunityHubUrl`. */
  function CommunityHubUrl(appId: nat): (url: string)
    ensures ParseCommunityUrl(url) == Some(CommunityRef(Hub, appId))
    ensures AppBase <= url
    ensures AppBase + Strings.NatToString(appId) <= url
  {
    var url := AppPageUrl(appId, "");
    Strings.PrefixTransitive(AppBase, AppBase + Strings.NatToString(appId), url);
    url
  }

  /** `getDiscussionsUrl`: the hub URL is a proper prefix of it. */
  function DiscussionsUrl(appId: nat): (url: string)
    ensures ParseCommunityUrl(url) == Some(CommunityRef(Discussions, appId))
    ensures CommunityHubUrl(appId) < url
  {
    HubExtends(appId, "/discussions/");
    AppPageUrl(appId, "/discussions/")
  }

  /** `getWorkshopUrl`: the hub URL is a proper prefix of it. */
  function WorkshopUrl(appId: nat): (url: string)
    ensures ParseCommunityUrl(url) == Some(CommunityRef(Workshop, appId))
    ensures CommunityHubUrl(appId) < url
  {
    HubExtends(appId, "/workshop/");
    AppPageUrl(appId, "/workshop/")
  }

  /** `getGuidesUrl`: the hub URL is a proper prefix of it. */
  function GuidesUrl(appId: nat): (url: string)
    ensures ParseCommunityUrl(url) == Some(CommunityRef(Guides, appId))
    ensures CommunityHubUrl(appId) < url
  {
    HubExtends(appId, "/guides/");
    AppPageUrl(appId, "/guides/")
  }

  lemma HubExtends(appId: nat, tail: string)
    requires AppPageOf(tail).Some? && tail != ""
    ensures CommunityHubUrl(appId) < AppPageUrl(appId, tail)
  {
    var digits := Strings.NatToString(appId);
    assert AppBase + digits + "" == AppBase + digits;
    Strings.ConcatParts(AppBase + digits, tail);
  }

  /** `getAchievementsUrl`: under `/stats/`, never one of the `/app/` pages. */
  function AchievementsUrl(appId: nat): (url: string)
    ensures ParseCommunityUrl(url) == Some(CommunityRef(Achievements, appId))
    ensures StatsBase <= url && !(AppBase <= url)
    ensures StatsBase + Strings.NatToString(appId) <= url
  {
    var digits := Strings.NatToString(appId);
    var tail := "/achievements/";
    var url := StatsBase + (digits + tail);
    Strings.SplitRendered(appId, tail);
    Strings.ConcatParts(StatsBase, digits + tail);
    assert url[|CommunityOrigin|] == 's';
    assert AppBase[|CommunityOrigin|] == 'a';
    assert url == StatsBase + digits + tail;
    Strings.ConcatParts(StatsBase + digits, tail);
    url
  }

  /** The community URL of a page of an app. */
  function CommunityUrl(ref: CommunityRef): (url: string)
    ensures ParseCommunityUrl(url) == Some(ref)
  {
    match ref.page
    case Hub => CommunityHubUrl(ref.appid)
    case Discussions => DiscussionsUrl(ref.appid)
    case Workshop => WorkshopUrl(ref.appid)
    case Guides => GuidesUrl(ref.appid)
    case Achievements => AchievementsUrl(ref.appid)
  }

  /** The parser reads back exactly the URLs the builders write: every URL
      it accepts is the URL of the page it reads. */
  lemma ParseCommunityUrlInverse(url: string)
    ensures ParseCommunityUrl(url).Some? ==> url == CommunityUrl(ParseCommunityUrl(url).value)
  {
    var r := ParseCommunityUrl(url);
    if r.Some? {
      if AppBase <= url {
        var split := Strings.SplitLeadingNat(url[|AppBase|..]);
        var n, tail := split.value.n, split.value.tail;
        Strings.PrefixRest(AppBase, url);
        Strings.Regroup(AppBase, Strings.NatToString(n), tail, "");
        assert r.value == CommunityRef(AppPageOf(tail).value, n);
        AppPageUrlOfTail(n, tail);
      } else {
        var split := Strings.SplitLeadingNat(url[|StatsBase|..]);
        var n := split.value.n;
        Strings.PrefixRest(StatsBase, url);
        assert r.value == CommunityRef(Achievements, n);
        assert url == StatsBase + (Strings.NatToString(n) + "/achievements/");
      }
    }
  }

  /** The page URL the builders write for the page a tail names. */
  lemma AppPageUrlOfTail(appId: nat, tail: string)
    requires AppPageOf(tail).Some?
    ensures CommunityUrl(CommunityRef(AppPageOf(tail).value, appId))
            == AppBase + Strings.NatToString(appId) + tail
  {
    if tail == "" {
      assert CommunityHubUrl(appId) == AppPageUrl(appId, "");
    }
  }

  /** Every builder is injective, and no two builders share a URL: equal
      URLs name the same page of the same app. */
  lemma CommunityUrlInjective(a: CommunityRef, b: CommunityRef)
    ensures CommunityUrl(a) == CommunityUrl(b) <==> a == b
  {
    var ua, ub := CommunityUrl(a), CommunityUrl(b);
    if ua == ub {
      assert Some(a) == ParseCommunityUrl(ua) == Some(b);
    }
  }

  /** `getWorkshopItems`: workshop data is never available without an API
      key, for any app. */
  function WorkshopItems(appId: int): (r: Option<seq<string>>)
    ensures r.None?
  {
    None
  }
}

=== FILE: steam_images.dfy ===
/** The Steam CDN image URLs of lib/steam-image-api.ts: a fixed prefix, the
    decimal app id, and a file name per image kind. The host is one of the
    remote image hosts next.config.ts allows. */
module SteamImages {

  import opened Wrappers
  import Strings

  const AssetHost: string := "shared.akamai.steamstatic.com"
  const AssetOrigin: string := "https://" + AssetHost + "/"
  const AssetBase: string := AssetOrigin + "store_item_assets/steam/apps/"

  /** The `images.remotePatterns` host names of next.config.ts, all over
      https. */
  const RemoteImageHosts: seq<string> := [
    "cdn.akamai.steamstatic.com",
    "cdn.cloudflare.steamstatic.com",
    "shared.akamai.steamstatic.com",
    "steamcdn-a.akamaihd.net"
  ]

  datatype ImageKind = Header | Capsule | LibraryCapsule

  function FileName(kind: ImageKind): string {
    match kind
    case Header => "header.jpg"
    case Capsule => "capsule_616x353.jpg"
    case LibraryCapsule => "library_600x900.jpg"
  }

  /** What an asset URL names: an app and a file. */
  datatype AssetRef = AssetRef(appid: nat, file: string)

  /** Reads an asset URL back: the prefix, then a number, then '/' and the
      file name. */
  function ParseAssetUrl(url: string): (r: Option<AssetRef>)
    ensures r.Some? ==> AssetBase <= url
    ensures r.Some? ==> url == AssetBase + Strings.NatToString(r.value.appid) + "/" + r.value.file
  {
    if !(AssetBase <= url) then None
    else
      var split := Strings.SplitLeadingNat(url[|AssetBase|..]);
      if split.None? then None
      else
        var tail := split.value.tail;
        if |tail| > 0 && tail[0] == '/' then
          Strings.PrefixRest(AssetBase, url);
          assert tail == "/" + tail[1..];
          Strings.Regroup(AssetBase, Strings.NatToString(split.value.n), "/", tail[1..]);
          Some(AssetRef(split.value.n, tail[1..]))
        else None
  }

  function AssetUrl(appid: nat, kind: ImageKind): (url: string)
    ensures AssetBase + Strings.NatToString(appid) <= url
    ensures ParseAssetUrl(url) == Some(AssetRef(appid, FileName(kind)))
  {
    var tail := "/" + FileName(kind);
    var rest := Strings.NatToString(appid) + tail;
    Strings.SplitRendered(appid, tail);
    Strings.ConcatParts(AssetBase, rest);
    Strings.Regroup(AssetBase, Strings.NatToString(appid), tail, "");
    Strings.ConcatParts(AssetBase + Strings.NatToString(appid), tail);
    AssetBase + rest
  }

  /** The parser reads back exactly the URLs the builder writes: a URL that
      reads as an app and a kind's file name is that app's URL of that kind. */
  lemma ParseAssetUrlInverse(url: string, appid: nat, kind: ImageKind)
    ensures ParseAssetUrl(url) == Some(AssetRef(appid, FileName(kind))) <==> url == AssetUrl(appid, kind)
  {
  }

  /** `getSteamHeaderImage`. */
  function HeaderImage(appid: nat): (url: string)
    ensures ParseAssetUrl(url) == Some(AssetRef(appid, "header.jpg"))
    ensures AssetBase + Strings.NatToString(appid) <= url
  {
    AssetUrl(appid, Header)
  }

  /** `getSteamCapsuleImage`. */
  function CapsuleImage(appid: nat): (url: string)
    ensures ParseAssetUrl(url) == Some(AssetRef(appid, "capsule_616x353.jpg"))
    ensures AssetBase + Strings.NatToString(appid) <= url
  {
    AssetUrl(appid, Capsule)
  }

  /** `getSteamLibraryCapsule`. */
  function LibraryCapsuleImage(appid: nat): (url: string)
    ensures ParseAssetUrl(url) == Some(AssetRef(appid, "library_600x900.jpg"))
    ensures AssetBase + Strings.NatToString(appid) <= url
  {
    AssetUrl(appid, LibraryCapsule)
  }

  /** Two image URLs are equal only for the same app and the same kind: each
      builder is injective, and no two builders ever coincide. */
  lemma AssetUrlInjective(a: nat, ka: ImageKind, b: nat, kb: ImageKind)
    ensures AssetUrl(a, ka) == AssetUrl(b, kb) <==> a == b && ka == kb
  {
    if AssetUrl(a, ka) == AssetUrl(b, kb) {
      assert AssetRef(a, FileName(ka)) == AssetRef(b, FileName(kb));
      assert FileName(ka) == FileName(kb);
    }
  }

  /** Every image URL is served over https from an allowed host. */
  lemma AssetHostAllowed(appid: nat, kind: ImageKind)
    ensures AssetOrigin == "https://" + AssetHost + "/"
    ensures AssetOrigin <= AssetUrl(appid, kind)
    ensures AssetHost in RemoteImageHosts
  {
    assert RemoteImageHosts[2] == AssetHost;
    Strings.ConcatParts(AssetOrigin, "store_item_assets/steam/apps/");
    Strings.PrefixTransitive(AssetOrigin, AssetBase, AssetUrl(appid, kind));
  }
}

=== FILE: steamspy.dfy ===
/** Game-list operations over SteamSpy records (lib/steamspy-api.ts):
    price-range and genre filters, sorting, and the fixed genre and tag
    lists. Fetching the lists is not modelled; the operations are pure. */
module SteamSpy {

  import opened Wrappers
  import Strings
  import Seqs
  import Sorting

  /** The fields of a SteamSpy record that the site reads (lib/types.ts:123-144).
      `price` is the raw string of US cents, as SteamSpy sends it. */
  datatype SteamSpyGame = SteamSpyGame(
    appid: nat,
    name: string,
    genre: string,
    price: string,
    positive: int,
    negative: int,
    userscore: int,
    owners: string,
    ccu: int)

  /** The `priceRange` query value. The route casts any string to this type,
      so an unrecognised value reaches the `default` branch. */
  datatype PriceRange = Free | Under10 | From10To30 | Over30 | UnknownRange

  /** The `sortBy` value; an unrecognised one reaches the `default` branch. */
  datatype SortBy = Players | Rating | Name | UnknownSort

  /** `parseFloat(game.price)`: the price in cents, `None` for NaN. */
  function PriceCents(g: SteamSpyGame): Option<nat> {
    Strings.ParseLeadingNat(g.price)
  }

  /** The test inside `filterByPriceRange`, on cents instead of dollars
      (`cents / 100 < 10` is `cents < 1000`, and so on). A NaN price fails
      every comparison, so it is in no named range. */
  predicate InPriceRange(cents: Option<nat>, range: PriceRange) {
    match range
    case UnknownRange => true
    case Free => cents.Some? && cents.value == 0
    case Under10 => cents.Some? && 0 < cents.value < 1000
    case From10To30 => cents.Some? && 1000 <= cents.value <= 3000
    case Over30 => cents.Some? && cents.value > 3000
  }

  /** The four named ranges split the parsable prices: each price in cents
      lies in exactly one of them, and an unparsable price in none. */
  lemma PriceRangesPartition(cents: Option<nat>)
    ensures cents.Some? ==>
      (if InPriceRange(cents, Free) then 1 else 0)
      + (if InPriceRange(cents, Under10) then 1 else 0)
      + (if InPriceRange(cents, From10To30) then 1 else 0)
      + (if InPriceRange(cents, Over30) then 1 else 0) == 1
    ensures cents.None? ==>
      !InPriceRange(cents, Free) && !InPriceRange(cents, Under10)
      && !InPriceRange(cents, From10To30) && !InPriceRange(cents, Over30)
  {
  }

  /** `filterByPriceRange`: the games whose price lies in the range, in their
      original order; an unrecognised range keeps every game. */
  function FilterByPriceRange(games: seq<SteamSpyGame>, range: PriceRange): (r: seq<SteamSpyGame>)
    ensures Seqs.IsSubsequence(r, games)
    ensures forall i :: 0 <= i < |r| ==> InPriceRange(PriceCents(r[i]), range)
    ensures forall i :: 0 <= i < |games| && InPriceRange(PriceCents(games[i]), range) ==> games[i] in r
    ensures range == UnknownRange ==> r == games
    ensures forall g :: multiset(r)[g] == if InPriceRange(PriceCents(g), range) then multiset(games)[g] else 0
  {
    var keep := (g: SteamSpyGame) => InPriceRange(PriceCents(g), range);
    Seqs.FilterMultisetAll(games, keep);
    if range == UnknownRange then Seqs.FilterKeepsAll(games, keep); Seqs.Filter(games, keep)
    else Seqs.Filter(games, keep)
  }

  /** How many games have an unparsable price. */
  function CountUnpriced(games: seq<SteamSpyGame>): nat {
    |Seqs.Filter(games, (g: SteamSpyGame) => PriceCents(g).None?)|
  }

  /** Filtering one list by the four named ranges splits it: the four results
      and the unpriced games together account for every game exactly once. */
  lemma {:induction false} PriceFiltersPartitionList(games: seq<SteamSpyGame>)
    ensures |FilterByPriceRange(games, Free)| + |FilterByPriceRange(games, Under10)|
      + |FilterByPriceRange(games, From10To30)| + |FilterByPriceRange(games, Over30)|
      + CountUnpriced(games) == |games|
    decreases |games|
  {
    if |games| > 0 {
      PriceFiltersPartitionList(games[1..]);
      PriceRangesPartition(PriceCents(games[0]));
    }
  }

  /** The genre test as `filterByGenre` runs it: `includes` on the
      lowercased strings. */
  predicate GenreMatches(g: SteamSpyGame, genre: string) {
    Strings.Includes(Strings.Lower(g.genre), Strings.Lower(genre))
  }

  /** The lowercased needle occurs somewhere in the lowercased genre. */
  ghost predicate GenreContains(g: SteamSpyGame, genre: string) {
    exists k :: 0 <= k <= |g.genre| && Strings.OccursAt(Strings.Lower(g.genre), Strings.Lower(genre), k)
  }

  lemma GenreMatchesIffContains(g: SteamSpyGame, genre: string)
    ensures GenreMatches(g, genre) <==> GenreContains(g, genre)
  {
    Strings.IncludesIffOccurs(Strings.Lower(g.genre), Strings.Lower(genre));
  }

  /** `filterByGenre`: exactly the games whose lowercased genre contains the
      lowercased needle, in their original order. */
  function FilterByGenre(games: seq<SteamSpyGame>, genre: string): (r: seq<SteamSpyGame>)
    ensures Seqs.IsSubsequence(r, games)
    ensures forall i :: 0 <= i < |r| ==> GenreContains(r[i], genre)
    ensures forall i :: 0 <= i < |games| && GenreContains(games[i], genre) ==> games[i] in r
    ensures forall g :: multiset(r)[g] == if GenreContains(g, genre) then multiset(games)[g] else 0
  {
    var keep := (g: SteamSpyGame) => GenreMatches(g, genre);
    forall g: SteamSpyGame
      ensures GenreMatches(g, genre) <==> GenreContains(g, genre)
    {
      GenreMatchesIffContains(g, genre);
    }
    Seqs.FilterMultisetAll(games, keep);
    Seqs.Filter(games, keep)
  }

  /** An empty genre keeps every game. */
  lemma EmptyGenreKeepsAll(games: seq<SteamSpyGame>)
    ensures FilterByGenre(games, "") == games
  {
    forall g: SteamSpyGame
      ensures GenreMatches(g, "")
    {
      Strings.IncludesEmpty(Strings.Lower(g.genre));
    }
    Seqs.FilterKeepsAll(games, (g: SteamSpyGame) => GenreMatches(g, ""));
  }

  /** `(a, b) => b.ccu - a.ccu`: more concurrent players first. */
  function MorePlayers(a: SteamSpyGame, b: SteamSpyGame): bool { a.ccu >= b.ccu }

  /** `(a, b) => b.userscore - a.userscore`: higher user score first. */
  function BetterRated(a: SteamSpyGame, b: SteamSpyGame): bool { a.userscore >= b.userscore }

  /** `(a, b) => a.name.localeCompare(b.name)`, as code-point order. */
  function NameFirst(a: SteamSpyGame, b: SteamSpyGame): bool { Strings.LexLe(a.name, b.name) }

  lemma ComparatorsConsistent()
    ensures Sorting.TotalPreorder(MorePlayers)
    ensures Sorting.TotalPreorder(BetterRated)
    ensures Sorting.TotalPreorder(NameFirst)
  {
    forall a: SteamSpyGame, b: SteamSpyGame
      ensures NameFirst(a, b) || NameFirst(b, a)
    {
      Strings.LexLeTotal(a.name, b.name);
    }
    forall a: SteamSpyGame, b: SteamSpyGame, c: SteamSpyGame | NameFirst(a, b) && NameFirst(b, c)
      ensures NameFirst(a, c)
    {
      Strings.LexLeTransitive(a.name, b.name, c.name);
    }
  }

  /** `sortGames`: sorts a copy, so the result is a permutation of the
      input ordered by the chosen key; an unrecognised key returns the copy
      unsorted. */
  function SortGames(games: seq<SteamSpyGame>, sortBy: SortBy): (r: seq<SteamSpyGame>)
    ensures multiset(r) == multiset(games)
    ensures sortBy == Players ==> forall i, j :: 0 <= i < j < |r| ==> r[i].ccu >= r[j].ccu
    ensures sortBy == Rating ==> forall i, j :: 0 <= i < j < |r| ==> r[i].userscore >= r[j].userscore
    ensures sortBy == Name ==> forall i, j :: 0 <= i < j < |r| ==> Strings.LexLe(r[i].name, r[j].name)
    ensures sortBy == UnknownSort ==> r == games
  {
    ComparatorsConsistent();
    match sortBy
    case Players => Sorting.Sort(games, MorePlayers)
    case Rating => Sorting.Sort(games, BetterRated)
    case Name => Sorting.Sort(games, NameFirst)
    case UnknownSort => games
  }

  /** `sortGames` is stable: games with the same key as `g` (equal ccu,
      equal userscore, or equal name) keep their order in the input. */
  lemma SortGamesStable(games: seq<SteamSpyGame>, sortBy: SortBy, g: SteamSpyGame)
    ensures sortBy == Players ==>
              Sorting.Ties(SortGames(games, sortBy), g, MorePlayers) == Sorting.Ties(games, g, MorePlayers)
    ensures sortBy == Rating ==>
              Sorting.Ties(SortGames(games, sortBy), g, BetterRated) == Sorting.Ties(games, g, BetterRated)
    ensures sortBy == Name ==>
              Sorting.Ties(SortGames(games, sortBy), g, NameFirst) == Sorting.Ties(games, g, NameFirst)
  {
    ComparatorsConsistent();
    match sortBy
    case Players => Sorting.SortIsStable(games, g, MorePlayers);
    case Rating => Sorting.SortIsStable(games, g, BetterRated);
    case Name => Sorting.SortIsStable(games, g, NameFirst);
    case UnknownSort =>
  }

  /** `getAvailableGenres`: ten distinct genre names. */
  function AvailableGenres(): (r: seq<string>)
    ensures |r| == 10 && Sorting.Distinct(r)
  {
    ["Action", "Adventure", "Casual", "Indie", "Massively Multiplayer",
     "Racing", "RPG", "Simulation", "Sports", "Strategy"]
  }

  /** `getPopularTags`: thirty distinct tag names. */
  function PopularTags(): (r: seq<string>)
    ensures |r| == 30 && Sorting.Distinct(r)
  {
    TagHalvesDistinct();
    Sorting.DistinctConcat(TagsFirstHalf, TagsSecondHalf);
    TagsFirstHalf + TagsSecondHalf
  }

  const TagsFirstHalf: seq<string> :=
    ["Multiplayer", "Singleplayer", "Co-op", "FPS", "Survival",
     "Horror", "Open World", "Sandbox", "Zombies", "Crafting",
     "RPG", "Strategy", "Puzzle", "Platformer", "Roguelike"]

  const TagsSecondHalf: seq<string> :=
    ["Roguelite", "Souls-like", "Metroidvania", "Tower Defense", "Card Game",
     "Turn-Based", "Real-Time", "Point & Click", "Visual Novel", "Anime",
     "Pixel Graphics", "2D", "3D", "VR", "Early Access"]

  lemma TagHalvesDistinct()
    ensures Sorting.Distinct(TagsFirstHalf) && Sorting.Distinct(TagsSecondHalf)
    ensures forall i, j :: 0 <= i < |TagsFirstHalf| && 0 <= j < |TagsSecondHalf| ==>
              TagsFirstHalf[i] != TagsSecondHalf[j]
  {
    TagsFirstHalfDistinct();
    TagsSecondHalfDistinct();
  }

  lemma TagsFirstHalfDistinct()
    ensures Sorting.Distinct(TagsFirstHalf)
  {
  }

  lemma TagsSecondHalfDistinct()
    ensures Sorting.Distinct(TagsSecondHalf)
  {
  }
}

=== FILE: strings.dfy ===
/** Character- and string-level helpers shared by the model: ASCII case
    folding, prefix and substring search in the manner of JavaScript's
    `String.prototype.includes` / `startsWith`, and the decimal rendering and
    parsing of non-negative integers. */
module Strings {

  import opened Wrappers

  predicate IsAsciiUpper(c: char) { 'A' <= c <= 'Z' }

  predicate IsDigit(c: char) { '0' <= c <= '9' }

  predicate AllDigits(s: string) { forall i :: 0 <= i < |s| ==> IsDigit(s[i]) }

  /** ASCII lowercasing of one character; every other character is kept. */
  function LowerChar(c: char): char {
    if IsAsciiUpper(c) then (c as int + 32) as char else c
  }

  /** `toLowerCase`, restricted to the ASCII letters. */
  function Lower(s: string): (r: string)
    ensures |r| == |s|
    ensures forall i :: 0 <= i < |s| ==> r[i] == LowerChar(s[i])
  {
    seq(|s|, i requires 0 <= i < |s| => LowerChar(s[i]))
  }

  /** `sub` occurs in `s` starting at index `i`. */
  predicate OccursAt(s: string, sub: string, i: nat) {
    i + |sub| <= |s| && s[i..i + |sub|] == sub
  }

  /** `includes`: `sub` is tried at every position of `s`, left to right. */
  predicate Includes(s: string, sub: string)
    decreases |s|
  {
    sub <= s || (|s| > 0 && Includes(s[1..], sub))
  }

  /** The scan finds `sub` exactly when some position of `s` holds it. */
  lemma {:induction false} IncludesIffOccurs(s: string, sub: string)
    ensures Includes(s, sub) <==> exists i :: 0 <= i <= |s| && OccursAt(s, sub, i)
    decreases |s|
  {
    if sub <= s {
      assert OccursAt(s, sub, 0);
    } else if |s| > 0 {
      IncludesIffOccurs(s[1..], sub);
      OccursInTail(s, sub);
      if Includes(s[1..], sub) {
        var i :| 0 <= i <= |s| - 1 && OccursAt(s[1..], sub, i);
        assert OccursAt(s, sub, i + 1);
      }
      if i :| 0 <= i <= |s| && OccursAt(s, sub, i) {
        assert i > 0 && OccursAt(s[1..], sub, i - 1);
      }
    }
  }

  /** Past the first character, `sub` occurs in `s` where it occurs in the
      tail, one position later. */
  lemma OccursInTail(s: string, sub: string)
    requires |s| > 0
    ensures forall j :: 0 < j <= |s| ==> (OccursAt(s, sub, j) <==> OccursAt(s[1..], sub, j - 1))
  {
    forall j | 0 < j <= |s|
      ensures OccursAt(s, sub, j) <==> OccursAt(s[1..], sub, j - 1)
    {
      if j + |sub| <= |s| {
        assert s[1..][j - 1..j - 1 + |sub|] == s[j..j + |sub|];
      }
    }
  }

  /** `indexOf`: the first position holding `sub`, if any. */
  function IndexOf(s: string, sub: string): (r: Option<nat>)
    ensures r.Some? ==> OccursAt(s, sub, r.value)
    ensures r.Some? ==> forall j :: 0 <= j < r.value ==> !OccursAt(s, sub, j)
    ensures r.None? ==> forall j :: 0 <= j <= |s| ==> !OccursAt(s, sub, j)
    decreases |s|
  {
    if sub <= s then Some(0)
    else if |s| == 0 then None
    else
      var rest := IndexOf(s[1..], sub);
      OccursInTail(s, sub);
      if rest.None? then None else Some(rest.value + 1)
  }

  /** `split` with a non-empty separator: the pieces between successive
      non-overlapping occurrences, scanning from the left. */
  function Split(s: string, sep: string): (parts: seq<string>)
    requires |sep| > 0
    ensures |parts| >= 1
    ensures forall k, j :: 0 <= k < |parts| && 0 <= j <= |parts[k]| ==> !OccursAt(parts[k], sep, j)
    decreases |s|
  {
    var i := IndexOf(s, sep);
    if i.None? then [s]
    else
      var head := s[..i.value];
      forall j | 0 <= j <= |head|
        ensures !OccursAt(head, sep, j)
      {
        if OccursAt(head, sep, j) {
          assert s[j..j + |sep|] == head[j..j + |sep|];
          assert j < i.value && OccursAt(s, sep, j);
        }
      }
      [head] + Split(s[i.value + |sep|..], sep)
  }

  /** `join`: the inverse of `Split`. */
  function Join(parts: seq<string>, sep: string): string
    requires |parts| >= 1
    decreases |parts|
  {
    if |parts| == 1 then parts[0] else parts[0] + sep + Join(parts[1..], sep)
  }

  /** Joining the pieces with the separator gives back the string. */
  lemma {:induction false} SplitJoin(s: string, sep: string)
    requires |sep| > 0
    ensures Join(Split(s, sep), sep) == s
    decreases |s|
  {
    var i := IndexOf(s, sep);
    if i.Some? {
      var k := i.value;
      var rest := s[k + |sep|..];
      SplitUnfold(s, sep);
      SplitJoin(rest, sep);
      JoinCons(s[..k], Split(rest, sep), sep);
      Decompose(s, k, sep);
    }
  }

  lemma SplitUnfold(s: string, sep: string)
    requires |sep| > 0 && IndexOf(s, sep).Some?
    ensures var k := IndexOf(s, sep).value;
      Split(s, sep) == [s[..k]] + Split(s[k + |sep|..], sep)
  {
  }

  lemma JoinCons(head: string, tail: seq<string>, sep: string)
    requires |tail| >= 1
    ensures Join([head] + tail, sep) == head + sep + Join(tail, sep)
  {
    assert ([head] + tail)[1..] == tail;
  }

  lemma Decompose(s: string, k: nat, sep: string)
    requires OccursAt(s, sep, k)
    ensures s == s[..k] + sep + s[k + |sep|..]
  {
    assert s == s[..k] + s[k..k + |sep|] + s[k + |sep|..];
  }

  /** The empty needle is found in every string. */
  lemma IncludesEmpty(s: string)
    ensures Includes(s, "")
  {
  }

  function DigitChar(d: nat): (c: char)
    requires d < 10
    ensures IsDigit(c)
  {
    ('0' as int + d) as char
  }

  function DigitValue(c: char): nat
    requires IsDigit(c)
  {
    c as int - '0' as int
  }

  /** Decimal rendering of a non-negative integer, as JavaScript's template
      literals and `String(n)` print it: no sign, no leading zeros. */
  function NatToString(n: nat): (r: string)
    ensures |r| >= 1 && AllDigits(r)
    ensures |r| > 1 ==> r[0] != '0'
    decreases n
  {
    if n < 10 then [DigitChar(n)] else NatToString(n / 10) + [DigitChar(n % 10)]
  }

  /** The value of a string of decimal digits. */
  function DigitsValue(s: string): nat
    requires AllDigits(s)
    decreases |s|
  {
    if |s| == 0 then 0 else DigitsValue(s[..|s| - 1]) * 10 + DigitValue(s[|s| - 1])
  }

  /** Reading back the rendering of `n` gives `n`. */
  lemma {:induction false} NatToStringRoundTrip(n: nat)
    ensures DigitsValue(NatToString(n)) == n
    decreases n
  {
    var r := NatToString(n);
    if n >= 10 {
      NatToStringRoundTrip(n / 10);
      assert r[..|r| - 1] == NatToString(n / 10);
    }
  }

  /** The longest prefix of `s` made of decimal digits. */
  function LeadingDigits(s: string): (r: string)
    ensures r <= s && AllDigits(r)
    ensures |r| < |s| ==> !IsDigit(s[|r|])
    decreases |s|
  {
    if |s| > 0 && IsDigit(s[0]) then [s[0]] + LeadingDigits(s[1..]) else []
  }

  /** `parseFloat` on a string of cents, restricted to unsigned integers:
      the value of the leading digits, or `None` (NaN) when `s` does not
      start with a digit. */
  function ParseLeadingNat(s: string): (r: Option<nat>)
    ensures r.None? <==> (|s| == 0 || !IsDigit(s[0]))
  {
    var ds := LeadingDigits(s);
    if |ds| == 0 then None else Some(DigitsValue(ds))
  }

  /** Every rendered number parses back to itself. */
  lemma ParseRendered(n: nat)
    ensures ParseLeadingNat(NatToString(n)) == Some(n)
  {
    var s := NatToString(n);
    LeadingDigitsOfDigits(s);
    NatToStringRoundTrip(n);
  }

  lemma {:induction false} LeadingDigitsOfDigits(s: string)
    requires AllDigits(s)
    ensures LeadingDigits(s) == s
    decreases |s|
  {
    if |s| > 0 {
      LeadingDigitsOfDigits(s[1..]);
    }
  }

  lemma {:induction false} LeadingDigitsBeforeSeparator(x: string, c: char, u: string)
    requires AllDigits(x) && !IsDigit(c)
    ensures LeadingDigits(x + [c] + u) == x
    decreases |x|
  {
    if |x| > 0 {
      assert (x + [c] + u)[1..] == x[1..] + [c] + u;
      LeadingDigitsBeforeSeparator(x[1..], c, u);
    }
  }

  /** A number at the front of `s` and what follows it: the inverse of
      writing `NatToString(n) + tail`, used to read app ids and counts back
      out of rendered text. Only the rendering `NatToString` produces is
      accepted, so a zero-padded number such as "07" is rejected. */
  datatype NumberThen = NumberThen(n: nat, tail: string)

  function SplitLeadingNat(s: string): (r: Option<NumberThen>)
    ensures r.None? <==> (|s| == 0 || !IsDigit(s[0]) || (s[0] == '0' && |s| > 1 && IsDigit(s[1])))
    ensures r.Some? ==> s == NatToString(r.value.n) + r.value.tail
    ensures r.Some? ==> |r.value.tail| < |s| && r.value.tail == s[|s| - |r.value.tail|..]
    ensures r.Some? ==> |r.value.tail| == 0 || !IsDigit(r.value.tail[0])
    ensures r.Some? ==> ParseLeadingNat(s) == Some(r.value.n)
  {
    var ds := LeadingDigits(s);
    if |ds| == 0 || (|ds| > 1 && ds[0] == '0') then None
    else
      CanonicalDigitsRoundTrip(ds);
      assert s == ds + s[|ds|..];
      Some(NumberThen(DigitsValue(ds), s[|ds|..]))
  }

  /** A digit string without a leading zero is the rendering of its value. */
  lemma {:induction false} CanonicalDigitsRoundTrip(ds: string)
    requires AllDigits(ds) && |ds| >= 1 && (|ds| > 1 ==> ds[0] != '0')
    ensures NatToString(DigitsValue(ds)) == ds
    decreases |ds|
  {
    var n := DigitsValue(ds);
    var d := DigitValue(ds[|ds| - 1]);
    if |ds| == 1 {
      assert ds[..0] == [];
      assert DigitChar(d) == ds[0];
    } else {
      var init := ds[..|ds| - 1];
      CanonicalDigitsRoundTrip(init);
      DigitsValuePositive(init);
      assert n == DigitsValue(init) * 10 + d && d < 10;
      assert n / 10 == DigitsValue(init) && n % 10 == d;
      assert DigitChar(d) == ds[|ds| - 1];
      assert ds == init + [ds[|ds| - 1]];
    }
  }

  /** Digits that do not start with '0' have a positive value. */
  lemma {:induction false} DigitsValuePositive(ds: string)
    requires AllDigits(ds) && |ds| >= 1 && ds[0] != '0'
    ensures DigitsValue(ds) >= 1
    decreases |ds|
  {
    if |ds| > 1 {
      DigitsValuePositive(ds[..|ds| - 1]);
    }
  }

  lemma SplitRendered(n: nat, tail: string)
    requires |tail| == 0 || !IsDigit(tail[0])
    ensures SplitLeadingNat(NatToString(n) + tail) == Some(NumberThen(n, tail))
  {
    var x := NatToString(n);
    if |tail| == 0 {
      assert x + tail == x;
      LeadingDigitsOfDigits(x);
    } else {
      assert x + tail == x + [tail[0]] + tail[1..];
      LeadingDigitsBeforeSeparator(x, tail[0], tail[1..]);
    }
    NatToStringRoundTrip(n);
    assert (x + tail)[|x|..] == tail;
  }

  /** `a` is a prefix of `a + b`, and dropping it leaves `b`. */
  lemma ConcatParts(a: string, b: string)
    ensures a <= a + b && (a + b)[|a|..] == b
  {
  }

  /** A string is its prefix followed by the rest. */
  lemma PrefixRest(a: string, s: string)
    requires a <= s
    ensures s == a + s[|a|..]
  {
  }

  /** Regrouping a string built from four parts. */
  lemma Regroup(a: string, b: string, c: string, d: string)
    ensures a + (b + (c + d)) == a + b + c + d
    ensures a + (b + c) == a + b + c
  {
  }

  lemma PrefixTransitive(a: string, b: string, c: string)
    requires a <= b && b <= c
    ensures a <= c
  {
    assert c[..|a|] == b[..|a|];
  }

  /** Lexicographic order on code points: `a` sorts no later than `b`. */
  predicate LexLe(a: string, b: string)
    decreases |a|
  {
    |a| == 0 || (|b| > 0 && (a[0] < b[0] || (a[0] == b[0] && LexLe(a[1..], b[1..]))))
  }

  lemma {:induction false} LexLeTotal(a: string, b: string)
    ensures LexLe(a, b) || LexLe(b, a)
    decreases |a|
  {
    if |a| > 0 && |b| > 0 && a[0] == b[0] {
      LexLeTotal(a[1..], b[1..]);
    }
  }

  lemma {:induction false} LexLeTransitive(a: string, b: string, c: string)
    requires LexLe(a, b) && LexLe(b, c)
    ensures LexLe(a, c)
    decreases |a|
  {
    if |a| > 0 && a[0] == b[0] && b[0] == c[0] {
      LexLeTransitive(a[1..], b[1..], c[1..]);
    }
  }
}

=== FILE: top_games_page.dfy ===
/** The per-row figures of the top-games page (app/top-games/page.tsx),
    which asks the top-games route for pages of 100 games sorted by
    players: the rank, the review score with its colour, the price label,
    and the Previous / Next page handlers. */
module TopGamesPage {

  import opened Wrappers
  import Seqs
  import Pagination
  import SteamSpy
  import GameCard

  /** The page size the page requests. */
  const RowsPerPage: nat := 100

  /** `rank = (page - 1) * 100 + index + 1`. */
  function Rank(page: int, index: nat): (rank: int)
    ensures page >= 1 ==> rank >= index + 1
  {
    Pagination.PageStart(page, RowsPerPage) + index + 1
  }

  /** Row `index` of page `page` shows the game at position `rank` of the
      whole ranking (1-based): ranks are consecutive within a page and
      carry on across pages. */
  lemma RankIsPosition(ranked: seq<SteamSpy.SteamSpyGame>, page: int, index: nat)
    requires page >= 1
    requires index < |Pagination.Paginate(ranked, page, RowsPerPage).games|
    ensures 1 <= Rank(page, index) <= |ranked|
    ensures Pagination.Paginate(ranked, page, RowsPerPage).games[index] == ranked[Rank(page, index) - 1]
  {
    var start := Pagination.PageStart(page, RowsPerPage);
    var games := Pagination.Paginate(ranked, page, RowsPerPage).games;
    assert games == ranked[Pagination.Min(start, |ranked|)..Pagination.Min(start + RowsPerPage, |ranked|)];
  }

  lemma RanksContinue(page: int)
    requires page >= 1
    ensures Rank(page + 1, 0) == Rank(page, RowsPerPage - 1) + 1
    ensures forall i: nat :: Rank(page, i + 1) == Rank(page, i) + 1
  {
  }

  /** `score`: the share of positive reviews in percent, rounded, when
      there are reviews; the SteamSpy user score otherwise. */
  function Score(game: SteamSpy.SteamSpyGame): (score: int)
    ensures var total := game.positive + game.negative;
      && (total > 0 ==> 2 * score * total - total <= 200 * game.positive < 2 * score * total + total)
      && (total <= 0 ==> score == game.userscore)
    ensures game.positive >= 0 && game.negative >= 0 && game.positive + game.negative > 0 ==>
      0 <= score <= 100
  {
    var total := game.positive + game.negative;
    if total > 0 then
      var score := Seqs.RoundDiv(100 * game.positive, total);
      assert game.positive >= 0 && game.negative >= 0 ==> 0 <= score <= 100 by {
        if game.positive >= 0 && game.negative >= 0 {
          Seqs.PercentBounds(game.positive, total);
        }
      }
      score
    else game.userscore
  }

  /** The rating column: a coloured badge only for a positive score,
      "N/A" otherwise; the colour thresholds are the game card's. */
  function RatingBadge(score: int): (badge: Option<GameCard.ScoreTone>)
    ensures badge.Some? <==> score > 0
    ensures badge.Some? ==> (badge.value == GameCard.Green <==> score >= 80)
    ensures badge.Some? ==> (badge.value == GameCard.Red <==> score < 60)
  {
    if score > 0 then Some(GameCard.ScoreColor(score)) else None
  }

  /** `priceDisplay`: "Free" for "0", empty for an empty price, the dollar
      amount otherwise. */
  function PriceDisplay(price: string): (shown: GameCard.PriceLabel)
    ensures shown == GameCard.Free <==> price == "0"
    ensures shown == GameCard.NoPrice <==> price == ""
  {
    if price == "0" then GameCard.Free
    else if price == "" then GameCard.NoPrice
    else GameCard.Dollars(price)
  }

  /** The page shows a price exactly as a non-free game card would. */
  lemma PriceDisplayMatchesCard(price: string)
    ensures PriceDisplay(price) == GameCard.FormatPrice(false, Some(price))
  {
  }

  /** The Previous button's update `Math.max(1, p - 1)`. */
  function PrevPage(page: int): (p: int)
    ensures p >= 1
    ensures page > 1 ==> p == page - 1
    ensures page <= 1 ==> p == 1
  {
    if page - 1 > 1 then page - 1 else 1
  }

  /** The Next button's update `Math.min(totalPages, p + 1)`. */
  function NextPage(page: int, totalPages: int): (p: int)
    ensures p <= totalPages
    ensures page < totalPages ==> p == page + 1
    ensures page >= totalPages ==> p == totalPages
  {
    if page + 1 < totalPages then page + 1 else totalPages
  }

  /** From a page in [1, totalPages], both buttons lead to a page in
      [1, totalPages]. */
  lemma PageStaysInRange(page: int, totalPages: int)
    requires 1 <= page <= totalPages
    ensures 1 <= PrevPage(page) <= totalPages
    ensures 1 <= NextPage(page, totalPages) <= totalPages
  {
  }
}

=== FILE: top_games_route.dfy ===
/** The `GET /api/top-games` handler (app/api/top-games/route.ts): optional
    price filter, then optional genre filter, then optional sort, then one
    page of the result. The SteamSpy fetch is a parameter: `None` stands for
    a failed request. */
module TopGamesRoute {

  import opened Wrappers
  import Seqs
  import Strings
  import SteamSpy
  import Pagination

  /** The query string, already parsed. `None` is a parameter that is absent
      or empty; `page` and `perPage` are the results of `parseInt`. */
  datatype Query = Query(
    priceRange: Option<SteamSpy.PriceRange>,
    genre: Option<string>,
    sortBy: Option<SteamSpy.SortBy>,
    page: Option<int>,
    perPage: Option<int>)

  datatype Response =
    | Ok(body: Pagination.PagedBody<SteamSpy.SteamSpyGame>)
    | ServerError(error: string)

  const DefaultPage: int := 1
  const DefaultPerPage: int := 20

  function PageOf(q: Query): int { if q.page.Some? then q.page.value else DefaultPage }

  function PerPageOf(q: Query): int { if q.perPage.Some? then q.perPage.value else DefaultPerPage }

  /** `if (genre)`: an empty string is falsy and skips the filter. */
  predicate HasGenre(q: Query) { q.genre.Some? && q.genre.value != "" }

  /** The filter and sort steps, each applied only when its parameter is
      present: price, then genre, then sort. */
  function ApplyFilters(games: seq<SteamSpy.SteamSpyGame>, q: Query): seq<SteamSpy.SteamSpyGame> {
    var byPrice := if q.priceRange.Some? then SteamSpy.FilterByPriceRange(games, q.priceRange.value) else games;
    var byGenre := if HasGenre(q) then SteamSpy.FilterByGenre(byPrice, q.genre.value) else byPrice;
    if q.sortBy.Some? then SteamSpy.SortGames(byGenre, q.sortBy.value) else byGenre
  }

  /** The game passes the requested price and genre filters. */
  ghost predicate Passes(g: SteamSpy.SteamSpyGame, q: Query) {
    && (q.priceRange.Some? ==> SteamSpy.InPriceRange(SteamSpy.PriceCents(g), q.priceRange.value))
    && (HasGenre(q) ==> SteamSpy.GenreContains(g, q.genre.value))
  }

  /** The price step keeps exactly the fetched games in the requested range. */
  lemma PriceStepSpec(games: seq<SteamSpy.SteamSpyGame>, q: Query, byPrice: seq<SteamSpy.SteamSpyGame>)
    requires byPrice == if q.priceRange.Some? then SteamSpy.FilterByPriceRange(games, q.priceRange.value) else games
    ensures forall g :: g in byPrice <==> g in games && (q.priceRange.Some? ==> SteamSpy.InPriceRange(SteamSpy.PriceCents(g), q.priceRange.value))
    ensures Seqs.IsSubsequence(byPrice, games)
    ensures forall g :: multiset(byPrice)[g] ==
              if q.priceRange.None? || SteamSpy.InPriceRange(SteamSpy.PriceCents(g), q.priceRange.value)
              then multiset(games)[g] else 0
  {
    forall g
      ensures g in byPrice <==> g in games && (q.priceRange.Some? ==> SteamSpy.InPriceRange(SteamSpy.PriceCents(g), q.priceRange.value))
    {
      if q.priceRange.Some? && g in byPrice {
        var i :| 0 <= i < |byPrice| && byPrice[i] == g;
        Seqs.SubsequenceMember(byPrice, games, i);
      }
    }
    if q.priceRange.None? {
      Seqs.SubsequenceReflexive(games);
    }
  }

  /** The genre step keeps exactly the games whose genre matches. */
  lemma GenreStepSpec(byPrice: seq<SteamSpy.SteamSpyGame>, q: Query, byGenre: seq<SteamSpy.SteamSpyGame>)
    requires byGenre == if HasGenre(q) then SteamSpy.FilterByGenre(byPrice, q.genre.value) else byPrice
    ensures forall g :: g in byGenre <==> g in byPrice && (HasGenre(q) ==> SteamSpy.GenreContains(g, q.genre.value))
    ensures Seqs.IsSubsequence(byGenre, byPrice)
    ensures forall g :: multiset(byGenre)[g] ==
              if !HasGenre(q) || SteamSpy.GenreContains(g, q.genre.value) then multiset(byPrice)[g] else 0
  {
    forall g
      ensures g in byGenre <==> g in byPrice && (HasGenre(q) ==> SteamSpy.GenreContains(g, q.genre.value))
    {
      if HasGenre(q) && g in byGenre {
        var i :| 0 <= i < |byGenre| && byGenre[i] == g;
        Seqs.SubsequenceMember(byGenre, byPrice, i);
      }
    }
    if !HasGenre(q) {
      Seqs.SubsequenceReflexive(byPrice);
    }
  }

  /** The sort step reorders without adding or dropping games. */
  lemma SortStepSpec(byGenre: seq<SteamSpy.SteamSpyGame>, q: Query, r: seq<SteamSpy.SteamSpyGame>)
    requires r == if q.sortBy.Some? then SteamSpy.SortGames(byGenre, q.sortBy.value) else byGenre
    ensures forall g :: g in r <==> g in byGenre
    ensures q.sortBy == Some(SteamSpy.Players) ==> forall i, j :: 0 <= i < j < |r| ==> r[i].ccu >= r[j].ccu
    ensures q.sortBy == Some(SteamSpy.Rating) ==> forall i, j :: 0 <= i < j < |r| ==> r[i].userscore >= r[j].userscore
    ensures q.sortBy == Some(SteamSpy.Name) ==> forall i, j :: 0 <= i < j < |r| ==> Strings.LexLe(r[i].name, r[j].name)
    ensures q.sortBy == Some(SteamSpy.UnknownSort) ==> r == byGenre
    ensures multiset(r) == multiset(byGenre)
  {
    forall g
      ensures g in r <==> g in byGenre
    {
      if q.sortBy.Some? {
        assert g in r <==> g in multiset(r);
        assert g in byGenre <==> g in multiset(byGenre);
      }
    }
  }

  /** The price and genre steps together: each game is kept, as often as
      it was fetched, exactly when it passes both filters, and the kept
      games stay in fetched order. */
  lemma FilterStepsSpec(games: seq<SteamSpy.SteamSpyGame>, q: Query)
    ensures var byGenre := ApplyFilters(games, q.(sortBy := None));
      && (forall g :: multiset(byGenre)[g] == if Passes(g, q) then multiset(games)[g] else 0)
      && (forall g :: g in byGenre <==> g in games && Passes(g, q))
      && Seqs.IsSubsequence(byGenre, games)
  {
    var byPrice := if q.priceRange.Some? then SteamSpy.FilterByPriceRange(games, q.priceRange.value) else games;
    var byGenre := if HasGenre(q) then SteamSpy.FilterByGenre(byPrice, q.genre.value) else byPrice;
    assert ApplyFilters(games, q.(sortBy := None)) == byGenre;
    PriceStepSpec(games, q, byPrice);
    GenreStepSpec(byPrice, q, byGenre);
    Seqs.SubsequenceTransitive(byGenre, byPrice, games);
  }

  /** The sort step applied to the filtered list: the same games, each as
      often, ordered by a known key and left alone by an unknown one. */
  lemma SortOfFilteredSpec(games: seq<SteamSpy.SteamSpyGame>, q: Query)
    ensures var r := ApplyFilters(games, q);
      && multiset(r) == multiset(ApplyFilters(games, q.(sortBy := None)))
      && (q.sortBy.None? || q.sortBy == Some(SteamSpy.UnknownSort) ==> r == ApplyFilters(games, q.(sortBy := None)))
      && (q.sortBy == Some(SteamSpy.Players) ==> forall i, j :: 0 <= i < j < |r| ==> r[i].ccu >= r[j].ccu)
      && (q.sortBy == Some(SteamSpy.Rating) ==> forall i, j :: 0 <= i < j < |r| ==> r[i].userscore >= r[j].userscore)
      && (q.sortBy == Some(SteamSpy.Name) ==> forall i, j :: 0 <= i < j < |r| ==> Strings.LexLe(r[i].name, r[j].name))
  {
    var byGenre := ApplyFilters(games, q.(sortBy := None));
    assert ApplyFilters(games, q) == if q.sortBy.Some? then SteamSpy.SortGames(byGenre, q.sortBy.value) else byGenre;
    SortStepSpec(byGenre, q, ApplyFilters(games, q));
  }

  /** Sorting reorders only, so the sorted list holds exactly the games
      that pass the filters, each as often as it was fetched. */
  lemma SortedCounts(games: seq<SteamSpy.SteamSpyGame>, q: Query)
    ensures forall g :: multiset(ApplyFilters(games, q))[g] == if Passes(g, q) then multiset(games)[g] else 0
    ensures forall g :: g in ApplyFilters(games, q) <==> g in games && Passes(g, q)
  {
    var r := ApplyFilters(games, q);
    FilterStepsSpec(games, q);
    SortOfFilteredSpec(games, q);
    forall g
      ensures g in r <==> g in games && Passes(g, q)
    {
      assert g in r <==> g in multiset(r);
      assert g in games <==> g in multiset(games);
    }
  }

  /** The listed games are exactly the fetched games that pass the
      requested filters, each as often as it was fetched; they are ordered
      by `sortBy` when it is a known key and keep the fetched order
      otherwise. */
  lemma ApplyFiltersSpec(games: seq<SteamSpy.SteamSpyGame>, q: Query)
    ensures forall g :: g in ApplyFilters(games, q) <==> g in games && Passes(g, q)
    ensures forall g :: multiset(ApplyFilters(games, q))[g] == if Passes(g, q) then multiset(games)[g] else 0
    ensures multiset(ApplyFilters(games, q)) == multiset(ApplyFilters(games, q.(sortBy := None)))
    ensures q.sortBy.None? ==> Seqs.IsSubsequence(ApplyFilters(games, q), games)
    ensures q.sortBy == Some(SteamSpy.Players) ==>
      var r := ApplyFilters(games, q); forall i, j :: 0 <= i < j < |r| ==> r[i].ccu >= r[j].ccu
    ensures q.sortBy == Some(SteamSpy.Rating) ==>
      var r := ApplyFilters(games, q); forall i, j :: 0 <= i < j < |r| ==> r[i].userscore >= r[j].userscore
    ensures q.sortBy == Some(SteamSpy.Name) ==>
      var r := ApplyFilters(games, q); forall i, j :: 0 <= i < j < |r| ==> Strings.LexLe(r[i].name, r[j].name)
    ensures q.sortBy == Some(SteamSpy.UnknownSort) ==> ApplyFilters(games, q) == ApplyFilters(games, q.(sortBy := None))
  {
    FilterStepsSpec(games, q);
    SortOfFilteredSpec(games, q);
    SortedCounts(games, q);
  }

  /** `GET`: a failed fetch answers 500; otherwise the filtered list is
      paginated, with `total` counted before paging. */
  function Get(q: Query, top100: Option<seq<SteamSpy.SteamSpyGame>>): (r: Response)
    requires PerPageOf(q) >= 1
    ensures top100.None? <==> r == ServerError("Failed to fetch top games")
    ensures top100.Some? ==> r.Ok? && r.body.total == |ApplyFilters(top100.value, q)|
    ensures top100.Some? ==>
      var all := ApplyFilters(top100.value, q);
      && r.body.totalPages * PerPageOf(q) >= |all|
      && (r.body.totalPages - 1) * PerPageOf(q) < |all|
    ensures top100.Some? && PageOf(q) >= 1 ==> |r.body.games| <= PerPageOf(q)
    ensures top100.Some? && PageOf(q) >= 1 ==>
      var all := ApplyFilters(top100.value, q);
      var start := Pagination.PageStart(PageOf(q), PerPageOf(q));
      r.body.games == all[Pagination.Min(start, |all|)..Pagination.Min(start + PerPageOf(q), |all|)]
    ensures top100.Some? && q.page.None? ==> r.body.page == 1
    ensures top100.Some? && q.perPage.None? ==> r.body.perPage == 20
  {
    match top100
    case None => ServerError("Failed to fetch top games")
    case Some(games) => Ok(Pagination.Paginate(ApplyFilters(games, q), PageOf(q), PerPageOf(q)))
  }

  /** Paging through the whole result reproduces the filtered list. */
  lemma GetPagesCoverResult(q: Query, games: seq<SteamSpy.SteamSpyGame>)
    requires PerPageOf(q) >= 1
    ensures
      var all := ApplyFilters(games, q);
      var n := Get(q.(page := Some(1)), Some(games)).body.totalPages;
      Pagination.Pages(all, PerPageOf(q), n) == all
  {
    Pagination.AllPagesReassemble(ApplyFilters(games, q), PerPageOf(q));
  }
}

=== FILE: wishlist.dfy ===
/** The wishlist kept by the React context in lib/wishlist-context.tsx:
    an ordered list of games, at most one entry per app id. Each operation
    is the state update it hands to `setWishlist`; the clock reading
    `Date.now()` is a parameter, and localStorage persistence is left out. */
module Wishlist {

  import Seqs

  datatype WishlistGame = WishlistGame(
    appid: int,
    name: string,
    headerImage: string,   // "" when absent: the page only shows a truthy image
    addedAt: int)          // milliseconds since the epoch

  type WishlistState = seq<WishlistGame>

  /** The invariant the add operation is written to keep. */
  predicate UniqueAppids(w: WishlistState) {
    forall i, j :: 0 <= i < j < |w| ==> w[i].appid != w[j].appid
  }

  /** `isInWishlist` / `prev.some(item => item.appid === appid)`, scanned
      from the front. */
  function IsIn(w: WishlistState, appid: int): (r: bool)
    ensures r <==> exists i :: 0 <= i < |w| && w[i].appid == appid
  {
    if |w| == 0 then false
    else if w[0].appid == appid then true
    else
      var r := IsIn(w[1..], appid);
      assert forall i :: 1 <= i < |w| ==> w[i] == w[1..][i - 1];
      r
  }

  /** `addToWishlist`: a game already present leaves the list as it is;
      otherwise it is appended with `addedAt` stamped to `now`. */
  function Add(w: WishlistState, game: WishlistGame, now: int): (r: WishlistState)
    ensures IsIn(r, game.appid)
    ensures IsIn(w, game.appid) ==> r == w
    ensures !IsIn(w, game.appid) ==> r == w + [game.(addedAt := now)]
    ensures forall a :: a != game.appid ==> (IsIn(r, a) <==> IsIn(w, a))
    ensures UniqueAppids(w) ==> UniqueAppids(r)
  {
    if IsIn(w, game.appid) then w
    else
      var r := w + [game.(addedAt := now)];
      assert r[|w|].appid == game.appid;
      assert forall i :: 0 <= i < |w| ==> r[i] == w[i];
      r
  }

  predicate Keeps(appid: int, item: WishlistGame) { item.appid != appid }

  /** `removeFromWishlist`: every entry with that app id goes, every other
      entry stays, in order. */
  function Remove(w: WishlistState, appid: int): (r: WishlistState)
    ensures !IsIn(r, appid)
    ensures forall a :: a != appid ==> (IsIn(r, a) <==> IsIn(w, a))
    ensures Seqs.IsSubsequence(r, w)
    ensures UniqueAppids(w) ==> UniqueAppids(r)
  {
    var r := Seqs.Filter(w, item => Keeps(appid, item));
    forall a | a != appid
      ensures IsIn(r, a) <==> IsIn(w, a)
    {
      if IsIn(w, a) {
        var i :| 0 <= i < |w| && w[i].appid == a;
        assert w[i] in r;
      }
    }
    if UniqueAppids(w) then SubsequenceKeepsUnique(r, w); r else r
  }

  lemma {:induction false} SubsequenceKeepsUnique(a: WishlistState, b: WishlistState)
    requires Seqs.IsSubsequence(a, b) && UniqueAppids(b)
    ensures UniqueAppids(a)
    decreases |b|
  {
    if |a| > 0 {
      assert UniqueAppids(b[1..]) by {
        forall i, j | 0 <= i < j < |b[1..]|
          ensures b[1..][i].appid != b[1..][j].appid
        {
          assert b[1..][i] == b[i + 1] && b[1..][j] == b[j + 1];
        }
      }
      if a[0] == b[0] && Seqs.IsSubsequence(a[1..], b[1..]) {
        SubsequenceKeepsUnique(a[1..], b[1..]);
        forall j | 0 < j < |a|
          ensures a[0].appid != a[j].appid
        {
          Seqs.SubsequenceMember(a[1..], b[1..], j - 1);
          var k :| 0 <= k < |b[1..]| && b[1..][k] == a[1..][j - 1];
          assert b[k + 1] == a[j];
        }
        forall i, j | 0 <= i < j < |a|
          ensures a[i].appid != a[j].appid
        {
          if i > 0 {
            assert a[1..][i - 1] == a[i] && a[1..][j - 1] == a[j];
          }
        }
      } else {
        SubsequenceKeepsUnique(a, b[1..]);
      }
    }
  }

  /** `clearWishlist`. */
  function Clear(): (r: WishlistState)
    ensures forall a :: !IsIn(r, a)
    ensures Count(r) == 0
  {
    []
  }

  /** `wishlistCount`. */
  function Count(w: WishlistState): nat { |w| }

  /** Removing a game just added gives back the list from before. */
  lemma AddThenRemove(w: WishlistState, game: WishlistGame, now: int)
    requires !IsIn(w, game.appid)
    ensures Remove(Add(w, game, now), game.appid) == w
  {
    var added := w + [game.(addedAt := now)];
    var p := item => Keeps(game.appid, item);
    Seqs.FilterAppend(w, [game.(addedAt := now)], p);
    Seqs.FilterKeepsAll(w, p);
    assert Seqs.Filter([game.(addedAt := now)], p) == [];
  }

  /** Adding twice is adding once, whatever the second clock reading. */
  lemma AddIdempotent(w: WishlistState, game: WishlistGame, now: int, later: int)
    ensures Add(Add(w, game, now), game, later) == Add(w, game, now)
  {
  }

  /** Removing an app id that is not in the list changes nothing. */
  lemma RemoveAbsent(w: WishlistState, appid: int)
    requires !IsIn(w, appid)
    ensures Remove(w, appid) == w
  {
    Seqs.FilterKeepsAll(w, item => Keeps(appid, item));
  }

  /** One call a component makes on the context. */
  datatype Action = AddGame(game: WishlistGame, now: int) | RemoveGame(appid: int) | ClearAll

  function Apply(w: WishlistState, a: Action): WishlistState {
    match a
    case AddGame(g, now) => Add(w, g, now)
    case RemoveGame(id) => Remove(w, id)
    case ClearAll => Clear()
  }

  function ApplyAll(w: WishlistState, actions: seq<Action>): WishlistState
    decreases |actions|
  {
    if |actions| == 0 then w else ApplyAll(Apply(w, actions[0]), actions[1..])
  }

  /** Any run of adds, removes and clears starting from a list without
      duplicates (the empty list, say) never holds the same game twice. */
  lemma {:induction false} ActionsKeepAppidsUnique(w: WishlistState, actions: seq<Action>)
    requires UniqueAppids(w)
    ensures UniqueAppids(ApplyAll(w, actions))
    decreases |actions|
  {
    if |actions| > 0 {
      ActionsKeepAppidsUnique(Apply(w, actions[0]), actions[1..]);
    }
  }
}

=== FILE: wishlist_page.dfy ===
/** What the wishlist page (app/wishlist/page.tsx) derives from the list:
    the newest-first order, the count line, and which of the empty state or
    the listing with its "Clear All" button is shown. */
module WishlistPage {

  import opened Wrappers
  import Strings
  import Sorting
  import Wishlist

  /** The comparator `(a, b) => b.addedAt - a.addedAt` as "a may come
      before b". */
  predicate AddedNoEarlier(a: Wishlist.WishlistGame, b: Wishlist.WishlistGame) {
    a.addedAt >= b.addedAt
  }

  lemma AddedNoEarlierIsTotalPreorder()
    ensures Sorting.TotalPreorder(AddedNoEarlier)
  {
  }

  /** `sortedWishlist`: the same games, most recently added first. */
  function NewestFirst(w: Wishlist.WishlistState): (r: Wishlist.WishlistState)
    ensures multiset(r) == multiset(w)
    ensures forall i, j :: 0 <= i < j < |r| ==> r[i].addedAt >= r[j].addedAt
  {
    AddedNoEarlierIsTotalPreorder();
    var r := Sorting.Sort(w, AddedNoEarlier);
    assert Sorting.SortedBy(r, AddedNoEarlier);
    r
  }

  /** The sort is stable: games added at the same moment as `g` keep their
      order in the wishlist. */
  lemma NewestFirstStable(w: Wishlist.WishlistState, g: Wishlist.WishlistGame)
    ensures Sorting.Ties(NewestFirst(w), g, AddedNoEarlier) == Sorting.Ties(w, g, AddedNoEarlier)
  {
    AddedNoEarlierIsTotalPreorder();
    Sorting.SortIsStable(w, g, AddedNoEarlier);
  }

  /** The noun after the count. */
  function GameNoun(n: nat): (r: string)
    ensures r == "game" <==> n == 1
    ensures r == "games" <==> n != 1
  {
    if n == 1 then "game" else "games"
  }

  /** `{n} {game|games} in your wishlist`. */
  function CountLine(n: nat): (r: string)
    ensures Strings.SplitLeadingNat(r) == Some(Strings.NumberThen(n, " " + GameNoun(n) + " in your wishlist"))
    ensures Strings.ParseLeadingNat(r) == Some(n)
  {
    var tail := " " + GameNoun(n) + " in your wishlist";
    var r := Strings.NatToString(n) + tail;
    Strings.SplitRendered(n, tail);
    r
  }

  datatype View =
    | EmptyState
    | Listing(countLine: string, games: Wishlist.WishlistState, clearAll: bool)

  /** The mounted page: the empty state exactly when the list is empty;
      otherwise the count, the newest-first cards and the "Clear All"
      button. */
  function Render(w: Wishlist.WishlistState): (v: View)
    ensures v.EmptyState? <==> |w| == 0
    ensures v.Listing? ==> v.clearAll && multiset(v.games) == multiset(w)
    ensures v.Listing? ==> Strings.ParseLeadingNat(v.countLine) == Some(Wishlist.Count(w))
    ensures v.Listing? ==>
      Strings.SplitLeadingNat(v.countLine) == Some(Strings.NumberThen(|w|, " " + GameNoun(|w|) + " in your wishlist"))
  {
    if |w| == 0 then EmptyState
    else Listing(CountLine(|w|), NewestFirst(w), |w| > 0)
  }
}

=== FILE: wrappers.dfy ===
/** Optional values: a JavaScript `undefined` / `null` / NaN becomes `None`. */
module Wrappers {

  datatype Option<+T> = None | Some(value: T)
}
